=== FILE: README.md ===
# cppy3 core, modelled in Dafny

cppy3 is a C++ wrapper that embeds CPython. This project models the bookkeeping
that cppy3 layers over the CPython C API:

- the `Var` reference handle and its reference-count ownership;
- the exception bridge (`PyExceptionData`, `getErrorObject`, `error`,
  `rethrowPythonException`), and `exec`/`eval` with eval's fallback to exec on
  a `SyntaxError`;
- marshalling (`convert`, `extract`, `Var::type`, `Var::toString`);
- dotted-name lookup (`lookupObject`, `lookupCallable`) and `call`;
- the `List` adapter, `Dict::contains` and `appendToSysPath`;
- the GIL guards (`GILLocker`, `ScopedGILRelease`, `ScopedGILLock`).

CPython itself is an abstract runtime, the class `PyRuntime.Runtime`. It has:

- an object heap `heap: map<Id, Obj>`;
- the reference counts, as a multiset `refs` (`refs[x]` is `Py_REFCNT(x)`);
- the pending-error slot `err` (`PyErr_Occurred`);
- the calling thread's "holds the GIL" flag, `gilHeld`;
- the `Py_IsInitialized` flag.

The interpreter's own computations are oracles passed in as parameters:

- `str()` of objects other than str, int, bool and None, `repr()` and `callable()`;
- the `traceback` module: whether importing it raises, whether it has a
  callable `format_tb`, and the list `format_tb` returns;
- `==` between two objects;
- the result of running a script (`PyRun_String`) and of calling an object
  (`PyObject_CallObject`).

An oracle that can raise gives the exception it leaves pending. The C API's
own errors (`PyErr_BadInternalCall`'s SystemError, IndexError, TypeError,
AttributeError) are raised with their type object at a fixed identity.

Code that updates state in place is written as methods on classes:

- `Var`, `List`, `Dict`, `GILLocker` and the scoped GIL guards;
- `Runtime`, whose `heap`, `refs`, `err` and `gilHeld` the C API calls change.

Each such method is specified by pure functions: `Capture`, `Rethrow`,
`Resolve`, `ExecOutcome`, `EvalOutcome`, `CallOutcome`, `ContainsItem` and
`DedupAppend`. The properties of those functions are proved as lemmas.

Reference counts are checked as a ledger. A state is *balanced* when `refs`
equals the multiset of owners: one entry per handle, container slot or
caller that holds a reference. `Handle.Balanced` states this.

The modules follow the source:

| file | module | models |
|---|---|---|
| `runtime.dfy` | `PyRuntime` | the abstract CPython runtime |
| `exceptions.dfy` | `Exceptions` | `PyExceptionData`, `PythonException::what` |
| `text.dfy` | `Text` | `std::getline` splitting on a delimiter |
| `handle.dfy` | `Handle` | `Var` and the reference-count ledger |
| `errors.dfy` | `ErrorBridge` | `getErrorObject`, `error`, `rethrowPythonException` |
| `marshal.dfy` | `Marshal` | `convert`, `extract`, `Var::type`, `Var::toString` |
| `lookup.dfy` | `Lookup` | `lookupObject`, `lookupCallable` |
| `interp.dfy` | `Interpreter` | `exec`, `eval`, `exec(wstring)`, `call` |
| `lists.dfy` | `Lists` | the `List` adapter |
| `dicts.dfy` | `Dicts` | `Dict::contains` |
| `syspath.dfy` | `SysPath` | `appendToSysPath` |
| `gil.dfy` | `Gil` | `GILLocker`, `ScopedGILRelease`, `ScopedGILLock` |

## Model

| member | source | states |
|---|---|---|
| Exceptions.FromReason | cppy3/cppy3.hpp:115 | The reason-only constructor leaves type and trace empty, and the data is empty exactly when the reason is. |
| Exceptions.IsEmptyIgnoresTrace | cppy3/cppy3.hpp:118-131 | `isEmpty` does not depend on the trace. `toString` is empty exactly when `isEmpty` holds. |
| Exceptions.TraceTextAppend | cppy3/cppy3.hpp:125-129 | The trace text of two traces in sequence is the two trace texts concatenated, so lines keep their order. |
| Exceptions.TraceTextLines | cppy3/cppy3.hpp:125-129 | Splitting the trace text at its newlines gives back exactly the trace lines, for lines that hold no newline. |
| Exceptions.ToStringLines | cppy3/cppy3.hpp:123-131 | For a type, reason and trace lines that hold no newline, the lines of a non-empty `toString` are the type, the reason, then every trace line, in order. |
| Exceptions.TraceText | cppy3/cppy3.hpp:125-129 | The trace text gives every line at least one character, and a non-empty trace ends in a newline. |
| Exceptions.TraceTextLinesTerminated | cppy3/cppy3.hpp:125-129 | For entries that each end in a newline, as `format_tb`'s do (possibly with more newlines inside), the trace text splits into each entry's own lines followed by one empty line, in entry order. |
| Exceptions.TerminatedEntryLines | cppy3/cppy3.hpp:128 | An entry ending in a newline, followed by the newline the loop adds, splits into the entry's lines and one empty line. |
| Exceptions.ToStringLinesTerminated | cppy3/cppy3.hpp:123-131 | For a newline-free type and reason and newline-terminated trace entries, the lines of a non-empty `toString` are the type, the reason, then each entry's lines followed by an empty line. |
| Exceptions.BuildString | cppy3/cppy3.hpp:123-131 | The loop over the trace builds exactly `ToString(d)`, which is empty exactly when `isEmpty()` holds. |
| Exceptions.What | cppy3/cppy3.hpp:137-144 | `what()` is empty exactly when the data is empty. |
| Text.SplitOn | cppy3/cppy3.cpp:470-474 | `getline` splitting produces no segments exactly for the empty name. |
| Text.IndexOrEndFirst | cppy3/cppy3.cpp:470-474 | `getline` stops at the first delimiter: the index found holds the delimiter, or is the end of the text, and no delimiter comes before it. |
| Text.SplitWhole | cppy3/cppy3.cpp:470-474 | A non-empty name without a dot is one segment, the name itself. |
| Text.SplitOnCons | cppy3/cppy3.cpp:470-474 | A dot-free piece followed by a dot becomes one segment, followed by the segments of the rest. An empty piece (as in `a..b`) gives an empty segment. |
| Text.SplitOnPiecesFree | cppy3/cppy3.cpp:470-474 | No segment contains the delimiter. |
| Text.SplitTrailingDelimiter | cppy3/cppy3.cpp:470-474 | A trailing dot adds no trailing empty segment. |
| Text.JoinSplit | cppy3/cppy3.cpp:470-474 | For a name that does not end in a dot, joining its segments with dots gives the name back. |
| Text.SplitJoin | cppy3/cppy3.cpp:470-474 | Splitting dot-free segments joined with dots gives the segments back, when the last one is non-empty. |
| Text.SplitOnAppend | cppy3/cppy3.hpp:125-129 | A text ending in the delimiter splits apart from what follows it: the pieces of the whole are the pieces of each part. |
| Text.DigitsRoundTrip | cppy3/cppy3.cpp:379 | The decimal digits of a natural number read back as that number. |
| Text.DecimalRoundTrip | cppy3/cppy3.cpp:379 | The decimal text `str()` gives an int reads back as that int. |
| Handle.Var.Empty | cppy3/cppy3.hpp:301 | `Var()` holds NULL. |
| Handle.Var.Borrow | cppy3/cppy3.hpp:304-307 | `Var(PyObject*)` holds the object and adds exactly one count to it; NULL adds none. |
| Handle.Var.Copy | cppy3/cppy3.hpp:310-313 | The copy constructor shares the held PyObject* and adds exactly one count to it. |
| Handle.Var.From | cppy3/cppy3.hpp:387-392 | `Var::from` holds the object without touching any count. |
| Handle.Var.Reset | cppy3/cppy3.hpp:361-369 | `reset(o)` makes `data() == o` and changes the counts as `ResetRefs` says: nothing when `o` is the held pointer, otherwise one decrement of the old pointer and one increment of `o`. |
| Handle.Var.NewRef | cppy3/cppy3.hpp:377-384 | `newRef(o)` makes `data() == o` and changes the counts as `NewRefRefs` says: nothing for the same pointer, otherwise one decrement of the old pointer and no increment. |
| Handle.Var.Decref | cppy3/cppy3.hpp:421-425 | `decref` (and so `~Var`, cppy3/cppy3.hpp:335-338) removes exactly one count of a non-NULL pointer whose count is positive, and none for NULL. A release at count 0 is left out. |
| Handle.Var.IsNone | cppy3/cppy3.hpp:405-416 | `none()` holds exactly for NULL or `Py_None`, so `null()` implies `none()`. |
| Handle.ResetKeepsBalance | cppy3/cppy3.hpp:361-369 | `reset` keeps a balanced ledger balanced when the handle's ownership moves from the old pointer to the new one. |
| Handle.ResetCounts | cppy3/cppy3.hpp:361-369 | A `reset` to a different pointer changes each object's count by exactly minus one for the old pointer and plus one for the new. |
| Handle.NewRefKeepsBalance | cppy3/cppy3.hpp:377-384 | Adopting a reference the caller owned keeps a balanced ledger balanced. |
| Handle.NewRefSamePointerLeaks | cppy3/cppy3.hpp:377-384 | Adopting a new reference to the already-held object leaves every count unchanged, so one count has no owner. |
| Handle.MemberwiseAssignUnbalances | cppy3/cppy3.cpp:484-487 | The memberwise `p = Var(...)` leaves the old object one count above its owners and the new one a count below. The ledger is no longer balanced. |
| Handle.BorrowOfOwnedLeaks | cppy3/cppy3.cpp:108 | Wrapping the new reference from `convert` in `Var(PyObject*)` and destroying the Var leaves one count with no owner. |
| Handle.AdoptOfOwnedBalanced | cppy3/cppy3.cpp:108 | Adopting it with `Var::from` instead keeps the ledger balanced before and after the Var is destroyed. |
| ErrorBridge.TraceLines | cppy3/cppy3.cpp:263-276 | At most one trace line per `format_tb` item. |
| ErrorBridge.TraceLinesAppend | cppy3/cppy3.cpp:263-276 | Trace lines keep the order of the `format_tb` list. |
| ErrorBridge.TraceLinesFromItems | cppy3/cppy3.cpp:263-276 | Every trace line comes from an item that parses as a string. A list with no such item gives no trace. |
| ErrorBridge.TraceLinesAllText | cppy3/cppy3.cpp:263-276 | When every item parses, the trace is exactly their texts, in order. |
| ErrorBridge.Snapshot | cppy3/cppy3.cpp:221-294 | With no pending error the snapshot is empty. It has no trace when the traceback is NULL, when importing `traceback` raised or `format_tb` is missing or not callable (cppy3/cppy3.cpp:247, :252), or when the `format_tb` call raised. |
| ErrorBridge.Capture | cppy3/cppy3.cpp:221-294 | With no pending error, the snapshot is empty and the slot is untouched. Otherwise `clearError == false` restores the fetched triple. `clearError == true` does not clear the slot (the source never calls `PyErr_Clear`): it holds what `CaptureRaised` says the traceback import, the `format_tb` call or the last entry parse raised, and is empty only if none raised. |
| ErrorBridge.Rethrow | cppy3/cppy3.cpp:196-203 | A throw happens exactly when `error()` holds, and the snapshot thrown is the pending one. Afterwards the slot holds what the traceback capture raised (`CaptureRaised`). With no throw the slot is unchanged. |
| ErrorBridge.RethrowLeavesError | cppy3/cppy3.cpp:190-203 | After a throw, `error()` is false exactly when the capture was quiet. That means the `traceback` import succeeded, and, when there is a live traceback and a callable `format_tb`, the call returned a list whose entries all parse. |
| ErrorBridge.CaptureRaisedNone | cppy3/cppy3.cpp:236-287 | The clear path leaves no exception exactly when the traceback capture raises nothing. |
| ErrorBridge.LastParseErrorMeans | cppy3/cppy3.cpp:263-276 | Parsing the entries leaves no exception exactly when every entry parses. Otherwise it leaves the one raised by the last entry that failed to parse. |
| ErrorBridge.ParseEntries | cppy3/cppy3.cpp:263-276 | The loop keeps exactly the parsable entries, in order, and leaves pending the exception of the last entry that failed to parse. |
| ErrorBridge.StrText | cppy3/cppy3.cpp:242-245 | NULL reads as "<NULL>". A str gives its own text, and an int a decimal text that reads back as the int. |
| ErrorBridge.GetErrorObject | cppy3/cppy3.cpp:221-294 | The returned data and the new error slot are those `Capture` gives for the old slot, including an exception raised by the traceback capture itself. |
| ErrorBridge.RethrowPythonException | cppy3/cppy3.cpp:190-203 | A throw happens exactly when `error()` held before. After the throw the slot holds what the traceback capture raised (`CaptureRaised`), so `error()` is false after a quiet capture (tests/tests.cpp:101-115). |
| Marshal.ExtractDouble | cppy3/cppy3.cpp:345-355 | Succeeds exactly on a float. Otherwise it fails with "variable is not a real type". |
| Marshal.ExtractLong | cppy3/cppy3.cpp:357-367 | Succeeds exactly on an int (bool included), otherwise fails with "variable is not a long type". An int in the C `long` range yields its own value. `overflowPending` holds exactly for an int outside it, whose stored value is -1. A bool yields 1 or 0. |
| Marshal.ExtractText | cppy3/cppy3.cpp:322-343 | A str yields its text with nothing pending. Anything else yields `str()` of it. It fails with "variable has no string representation" exactly when `str()` fails, and then leaves `str()`'s exception pending. |
| Marshal.ConvertExtractRoundTrip | cppy3/cppy3.cpp:296-367 | Extracting what `convert` made from an int, a double or a string gives the value back. |
| Marshal.IntIsNotDouble | tests/tests.cpp:68-74 | Extracting a double from a converted int fails with "variable is not a real type". |
| Marshal.TypeOfNeverBool | cppy3/cppy3.cpp:410-454 | As written, `type()` never answers BOOL: `True` and `False` are classified LONG. |
| Marshal.TypeOf | cppy3/cppy3.cpp:410-454 | As written, a bool is classified LONG, and NUMPY_NDARRAY is never answered because that branch is compiled out. |
| Marshal.TypeOfCorrected | cppy3/cppy3.cpp:410-454 | With the bool test before the int test, BOOL is answered exactly for bools, and everything else is classified as before. |
| Marshal.TypeOfClassifies | cppy3/cppy3.cpp:410-454 | The first-match chain, as written, answers each tag for exactly its kind of object (LONG for ints and bools) and never answers NUMPY_NDARRAY. |
| Marshal.ToStringOf | cppy3/cppy3.cpp:374-394 | `str()` when that succeeds, with nothing pending. Else `repr()`, leaving `str()`'s exception pending. Else the placeholder naming the type, leaving `repr()`'s exception pending. |
| Marshal.ToStringMatchesExtract | cppy3/cppy3.cpp:322-394 | `toString()` and `extract(wstring)` agree: `toString` leaves nothing pending exactly when `extract` succeeds, with the same text. When only `str()` fails, both leave its exception pending. |
| Marshal.ToStringOfConverted | tests/tests.cpp:65 | `toString()` of a converted string is its text. That of a converted int is a decimal text reading back as the int, with nothing pending; `toString()` of the int 4 is "4". |
| Marshal.FillSlot | cppy3/cppy3.hpp:166-172 | Storing the converted item in slot i extends the converted prefix by one, and the list owns exactly the new item's count. |
| Marshal.SetConverted | cppy3/cppy3.hpp:166-172 | One loop pass: slot i becomes `convert(value[i])` and the list owns its only count. Objects that existed before are untouched. |
| Marshal.ConvertVector | cppy3/cppy3.hpp:160-174 | The result is a new list of length `value.size()`. Element i is a new object equal to `convert(value[i])`. Nothing that existed is changed. The caller owns the list's count and the list owns each element's. |
| Lookup.ResolveAppend | cppy3/cppy3.cpp:478-500 | Resolving `a` then `b` is resolving `a + b`. A miss in `a` is final, so the lookup never continues past it. |
| Lookup.ResolveEmptyName | cppy3/cppy3.cpp:470-478 | The empty name resolves to the root object, with no leak. |
| Lookup.ResolveSuccessFound | cppy3/cppy3.cpp:478-500 | A successful lookup ends at a non-NULL object reached by one more step from the resolution of all but the last segment. |
| Lookup.Resolve | cppy3/cppy3.cpp:478-500 | The first miss names one of the segments of the name. |
| Lookup.ResolveLeaksLive | cppy3/cppy3.cpp:478-500 | Every reference count the walk leaves unowned belongs to a live object. |
| Lookup.WalkAll | cppy3/cppy3.cpp:478-500 | The loop stops at the first miss with the failure `Resolve` predicts, or ends at the object `Resolve` reaches, with the counts grown by exactly the resolution's leaks and the slot untouched. |
| Lookup.Advance | cppy3/cppy3.cpp:483-492 | One step goes by dict key on a dict and by attribute otherwise. A missed attribute leaves `AttributeError` pending. The counts change by exactly the step's leak, and the handle owns the new object (corrected form, see Findings). |
| Lookup.AdvanceByKey | cppy3/cppy3.cpp:484-486 | The dict-key step, with the borrowed item taken by `reset`: the handle's count moves to the new object. |
| Lookup.AdvanceByAttribute | cppy3/cppy3.cpp:487-491 | The attribute step, with `newRef` of the new reference: it leaks one count exactly when the attribute is the object itself. |
| Lookup.LookupObject | cppy3/cppy3.cpp:468-502 | The result is `Resolve` of the '.'-segments: the object found, or "lookup <name> failed: no item <segment>" at the first miss. Counts grow by exactly the leaks plus the returned handle's count (corrected form, see Findings). |
| Lookup.LookupCallable | cppy3/cppy3.cpp:504-516 | As `lookupObject`. Then it throws "PyObject <name> is not callable" exactly when the object found is not callable, and the handle is released (corrected form, see Findings). |
| Interpreter.ExecOutcome | cppy3/cppy3.cpp:122-134 | A throw is the snapshot of the error the run left pending, and afterwards the slot holds what the traceback capture raised (`CaptureRaised`). A NULL result without a throw means no error was pending. |
| Interpreter.ExecRaisedThrows | cppy3/cppy3.cpp:122-134 | A script that raises makes `exec` throw the exception's snapshot. The slot is then empty exactly when the traceback capture was quiet (tests/tests.cpp:101-115). |
| Interpreter.EvalOutcome | cppy3/cppy3.cpp:136-159 | When no traceback capture raises, a throw from `eval` leaves no pending error. |
| Interpreter.EvalFallback | cppy3/cppy3.cpp:143-157 | The failure branch of `eval`. A pending error that is not a SyntaxError is thrown as its snapshot, and the slot then holds what the capture raised. When no capture raises, a throw leaves no pending error. |
| Interpreter.EvalSyntaxErrorRunsExec | cppy3/cppy3.cpp:145-152 | A failure whose type text is exactly `<class 'SyntaxError'>` is captured with `clearError`, and `exec` of the same script runs on the slot that capture left. |
| Interpreter.EvalOtherErrorRethrown | cppy3/cppy3.cpp:153-156 | Any other failure is rethrown as the pending exception's snapshot. The slot then holds what the traceback capture raised. |
| Interpreter.EvalResultIgnoresExec | cppy3/cppy3.cpp:142-158 | A non-NULL eval result is returned as is, and no file-mode run takes place. |
| Interpreter.RunString | cppy3/cppy3.cpp:128 | `PyRun_String` hands the caller exactly one new reference to its result, and sets the slot when it raises. |
| Interpreter.Exec | cppy3/cppy3.cpp:122-134 | The result, the new slot and the counts are those `ExecOutcome` gives. The caller owns the returned handle's count, and the GIL flag is restored. |
| Interpreter.Eval | cppy3/cppy3.cpp:136-159 | The result, the new slot and the counts are those `EvalOutcome` gives, and the GIL flag is restored. |
| Interpreter.EvalLocked | cppy3/cppy3.cpp:139-158 | The body of `eval` under the lock delivers `EvalOutcome`. |
| Interpreter.FallBack | cppy3/cppy3.cpp:143-157 | The failure branch delivers `EvalFallback`. |
| Interpreter.ExecWide | cppy3/cppy3.cpp:166-174 | `exec(wstring)` runs the coding line, a newline, then the script, and delivers `ExecOutcome` of that run. The GIL flag is restored. |
| Interpreter.CodingLineKeepsScriptLines | cppy3/cppy3.cpp:171-172 | The prepended text adds exactly one line, `# -*- coding: utf-8 -*-`, in front of the script's lines. |
| Interpreter.ArgsTupleBalanced | cppy3/cppy3.cpp:531-539 | Filling the argument tuple with an increment per argument and then releasing the tuple leaves every count as it was. |
| Interpreter.StolenArgumentFreed | cppy3/cppy3.cpp:534-538 | As written, with no increment, an argument whose only count is its owner's drops to zero when the tuple is released. Its owner is left with a freed object. |
| Interpreter.NewTuple | cppy3/cppy3.cpp:533 | `PyTuple_New(n)` is a new tuple of n NULL slots whose only count is the caller's. |
| Interpreter.SetSlot | cppy3/cppy3.cpp:537 | `PyTuple_SetItem` stores argument i in slot i and changes nothing else. |
| Interpreter.FillTuple | cppy3/cppy3.cpp:534-538 | The loop leaves the tuple holding the arguments in order, with the tuple owning one added count per argument (corrected form, see Findings). |
| Interpreter.PackArgs | cppy3/cppy3.cpp:529-539 | The argument tuple is a new object holding the arguments. The caller owns its count and it owns one per argument (corrected form, see Findings). |
| Interpreter.DropTuple | cppy3/cppy3.cpp:528 | Releasing the tuple's last count frees it and releases one count per slot. |
| Interpreter.CallOutcome | cppy3/cppy3.cpp:541-545 | A returned object is handed to the caller with the slot cleared. A raise is rethrown as its snapshot, and the slot then holds what the traceback capture raised. |
| Interpreter.Invoke | cppy3/cppy3.cpp:541-543 | `PyErr_Clear`, the call, then `rethrowPythonException`: the caller gets one new reference to the result, and the throw is what `Rethrow` says of the call's error. |
| Interpreter.CallWithTuple | cppy3/cppy3.cpp:528-545 | With the corrected increments, the tuple and its argument counts are gone afterwards, the heap is as before, and only the result's count is added. |
| Interpreter.Call | cppy3/cppy3.cpp:518-546 | A non-callable gives "PyObject <text> is not callable" with nothing changed. `callableText` stands for the pointer address that cppy3/cppy3.cpp:523 streams. Otherwise the result, the slot and the counts are those `CallOutcome` gives (corrected form, see Findings). |
| Lists.ContainsItemMeans | cppy3/cppy3.hpp:593-601 | The scan answers found exactly when some item compares equal and every item before it compares unequal, and not found exactly when every item compares unequal. A raise is the exception of the first comparison that raised, all earlier ones unequal. |
| Lists.ContainsItem | cppy3/cppy3.hpp:593-601 | An item identical to the element is never reported absent, so a list holding it answers found unless an earlier comparison raised. |
| Lists.ContainsAfterAppend | cppy3/cppy3.hpp:593-610 | An element appended to a list that did not contain it is contained afterwards. |
| Lists.InsertAt | cppy3/cppy3.hpp:612-619 | Insertion lengthens the list by one. |
| Lists.RemoveAt | cppy3/cppy3.hpp:584-591 | Removal shortens the list by one and shifts the later items down, keeping their order. |
| Lists.RemoveInserted | cppy3/cppy3.hpp:584-619 | Removing at the position `insert` used gives the original list back. |
| Lists.InsertAtEndAppends | cppy3/cppy3.hpp:603-619 | Inserting at or past the size is appending. |
| Lists.List.constructor | cppy3/cppy3.hpp:554-557 | `List(PyObject*)` borrows: it adds one count to the list. |
| Lists.List.Size | cppy3/cppy3.hpp:565-573 | Returns the length for a list, with the slot untouched. For a non-list it throws "invalid python list object" with SystemError pending. A List holding NULL is left out. |
| Lists.List.Get | cppy3/cppy3.hpp:575-582 | Returns a new handle borrowing item i exactly when i is below the size. An index out of bounds throws "List index of of bounds" with the slot untouched. A non-list throws the size error with SystemError pending. No count changes on a throw. A List holding NULL is left out. |
| Lists.List.Remove | cppy3/cppy3.hpp:584-591 | On a list with i in range, the item is removed, its count released, and the slot untouched. Otherwise it throws "PySequence_DelItem error", the heap and counts stay, and the slot holds IndexError for a list, SystemError for NULL, TypeError for anything else. Other types that support item deletion are left out. |
| Lists.List.Contains | cppy3/cppy3.hpp:593-601 | Answers `ContainsItem` with the slot untouched. A NULL element compared with any item raises SystemError, so on a non-empty list it throws. It throws "PySequence_Contains failed on list object" with TypeError (non-list) pending, or with the exception the raising comparison left. A List holding NULL is left out. |
| Lists.List.Append | cppy3/cppy3.hpp:603-610 | The list grows by exactly the element at the end, takes its own count of it, and the slot is untouched. For a non-list or a NULL element it throws "PyList_Append failed on list object", the heap and counts stay, and SystemError is pending. A List holding NULL is left out. |
| Lists.List.Insert | cppy3/cppy3.hpp:612-619 | The element goes in at the index clamped to the size, the list takes its own count, and the slot is untouched. For a non-list or a NULL element it throws "PyList_Insert failed on list object", the heap and counts stay, and SystemError is pending. A List holding NULL is left out. |
| Dicts.Dict.constructor | cppy3/cppy3.hpp:639-642 | `Dict(PyObject*)` borrows a dict: it adds one count. |
| Dicts.Dict.Contains | cppy3/cppy3.hpp:671-677 | The answer is whether the dict has the key. The key object made for the test is adopted and released, so every count ends as it was. |
| SysPath.DedupAppend | cppy3/cppy3.cpp:106-114 | The old entries stay, unchanged, as a prefix of the result. |
| SysPath.DedupAppendSnoc | cppy3/cppy3.cpp:106-114 | Each further path is appended exactly when the result so far lacks it. |
| SysPath.DedupAppendCovers | cppy3/cppy3.cpp:106-114 | Every path is in the result, and every entry of the result is an old entry or a path. |
| SysPath.DedupAppendPresent | cppy3/cppy3.cpp:109 | Paths that are all present already change nothing. |
| SysPath.DedupAppendIdempotent | cppy3/cppy3.cpp:100-115 | A second call with the same paths leaves `sys.path` as the first left it. |
| SysPath.DedupAppendDistinct | cppy3/cppy3.cpp:106-114 | A `sys.path` without duplicates stays without duplicates. |
| SysPath.ContainsFreshText | cppy3/cppy3.cpp:108-109 | A new str is contained in a list of strs exactly when its text is one of theirs. |
| SysPath.AppendedText | cppy3/cppy3.cpp:112 | Appending a str to a list of strs appends its text to the texts. |
| SysPath.FoundFresh | cppy3/cppy3.cpp:108-109 | After converting the next path, `contains` answers whether the result so far holds that text. |
| SysPath.StepPresent | cppy3/cppy3.cpp:109 | A path already present leaves the texts equal to the specification after it. |
| SysPath.StepAbsent | cppy3/cppy3.cpp:109-112 | Appending an absent path's str makes the texts equal to the specification after it. |
| SysPath.Convert | cppy3/cppy3.cpp:108 | The converted path is a new str whose only count is owned by its Var, adopted with `Var::from` (the corrected form). |
| SysPath.Search | cppy3/cppy3.cpp:109 | `contains` does not throw here and leaves the slot untouched. It answers whether the text is already among the entries the loop has produced. |
| SysPath.AppendNew | cppy3/cppy3.cpp:112 | `append` on the live list does not throw. It adds the str at the end and takes one count of it. |
| SysPath.Record | cppy3/cppy3.cpp:109-113 | The entries follow `DedupAppend` for one more path. The list holds a count of the new str exactly when it was appended. |
| SysPath.Release | cppy3/cppy3.cpp:113 | `~Var` takes away exactly the handle's count. |
| SysPath.AddPath | cppy3/cppy3.cpp:106-114 | One pass of the loop keeps `sys.path`'s texts equal to `DedupAppend` of the paths so far, and the slot untouched. The only counts added are the list's, one per appended str (corrected form, see Findings). |
| SysPath.AddAll | cppy3/cppy3.cpp:106-114 | After the loop, `sys.path` holds its old items followed by new strs. Their texts are `DedupAppend(old texts, paths)`. |
| SysPath.AppendLocked | cppy3/cppy3.cpp:104-114 | As `AddAll`, with the List adapter's own count released at the end. |
| SysPath.AppendToSysPath | cppy3/cppy3.cpp:100-115 | The texts of `sys.path` become `DedupAppend(old texts, paths)`. Objects other than `sys.path` are unchanged. Every count added is the list's, one per appended str. The GIL flag and the error slot are restored (corrected form, see Findings). |
| Gil.GILLocker.constructor | cppy3/cppy3.cpp:553-557 | Constructing locks: the thread holds the GIL and the guard records whether it held it before. |
| Gil.GILLocker.Lock | cppy3/cppy3.cpp:574-582 | `lock` acquires and records the state only when not locked. When locked it changes nothing. |
| Gil.GILLocker.Release | cppy3/cppy3.cpp:564-572 | `release` gives back exactly what `lock` took, only when locked, and clears the flag. When not locked it changes nothing. |
| Gil.ScopedGILRelease.constructor | cppy3/cppy3.hpp:717-720 | The thread no longer holds the GIL. |
| Gil.ScopedGILRelease.Restore | cppy3/cppy3.hpp:722-725 | The thread holds the GIL again. |
| Gil.ScopedGILLock.constructor | cppy3/cppy3.hpp:737-740 | The thread holds the GIL, and the prior state is saved. |
| Gil.ScopedGILLock.Release | cppy3/cppy3.hpp:742-745 | The saved state is restored. |
| Gil.NestedLockers | cppy3/cppy3.hpp:694-709 | Two nested lockers, each constructed and destroyed: the GIL is held inside, and the state before them is restored. |
| Gil.ReleaseThenRelock | tests/tests.cpp:151-194 | Under a `ScopedGILRelease` the GIL is not held. A `GILLocker` inside holds it, and the locker's end drops it again. The release's end holds it again. |

## Left out

- `PythonVM` (interpreter start-up and shutdown), `setArgv`, `execScriptFile` and `interrupt`. These are process, environment, file and signal plumbing. The runtime starts initialized.
- `import`, `getMainModule`, `getMainDict` and `createClassInstance` are not part of this model. `exec`/`eval` run in an unnamed namespace, because the script runner is an oracle. `AppendToSysPath` takes the `sys.path` list object directly: `lookupObject` is modelled separately, and `import("sys")` is left out.
- The effects of running a script or calling an object on the heap. The runner and the call outcome are oracle parameters, and the heap is unchanged by them.
- The UTF-8 / wide-string conversions (`WideToUTF8`, `UTF8ToWide`) are the identity on `string`. Locale-dependent encoding is not modelled.
- The numpy adapter, the `Matrix` templates and the template `extract` into a `std::vector`.
- Float values. A float is an opaque `bv64`, and `convert(double)` and `extract(double)` pass its bits through.
- The counts of the strings that `getErrorObject` and `toString` obtain from `str()`/`repr()`/`format_tb`, and of the error triple. The pending-error slot owns the triple outside the ledger.
- The GIL taken inside `error()` and `getErrorObject`. Those brackets restore the flag and change nothing else.
- The real threads behind the GIL guards. Only the calling thread's flag is modelled.
- Objects whose last count is released stay in the heap, except the argument tuple of `call`. A release there only lowers the count.
- Lists.List.Remove: PySequence_DelItem deletes through the type's item-deletion slot whenever the type has one. So a `bytearray`, a `collections.deque`, an `array.array` or an instance of a class defining `__delitem__` would lose item i and return normally. The model has no such objects' contents and fails every non-list with TypeError, leaving the heap unchanged.
- Lists.List.Get, Lists.List.Remove, Lists.List.Insert: indices are `nat`. The `size_t` to `Py_ssize_t` reinterpretation of indices at or above 2^63 is not modelled.
- Lists.List.Contains: comparisons other than identity and str equality are the `==` oracle. PySequence_Contains searches any iterable, but the model fails every non-list with TypeError.
- Lookup.Step, Lookup.LookupObject: attributes come only from modules and user objects (`ModuleObj`, `OtherObj`). Attributes that CPython computes or takes from the type, such as `list.append`, `str.upper` or `__class__`, are not modelled, so looking them up misses with AttributeError.
- Marshal.ConvertVector: only vectors of scalars (int, double, wstring) are modelled. The template's recursive conversion of nested `std::vector<std::vector<U>>` is left out.
- ErrorBridge.StrText: when `str()` of the type or value fails, the source passes NULL to `pyUnicodeToWstring`, which dereferences it. The model yields the empty text there instead.
- Lists.List.Size, Lists.List.Get, Lists.List.Contains, Lists.List.Append, Lists.List.Insert: a List holding NULL (the default `List()`) throws with SystemError pending in the model. In CPython, `PyList_Check` and `PySequence_Contains` read the type of the NULL object and crash. A crash has no outcome to model, so that case is not faithful.
- Handle.Var.Decref: a release of an object whose count is already 0 leaves the counts unchanged, because counts are a multiset and cannot go below 0. `decref` asserts a positive count only in debug builds (cppy3/cppy3.hpp:423). A release build would drop a count on a freed object. The later release of a Var whose object `StolenArgumentFreed` took to 0 is therefore not visible in the ledger.
- ErrorBridge.Snapshot: `PyErr_NormalizeException` is left out. An error the C API raises itself carries a NULL value here, so its snapshot's reason reads "<NULL>" where CPython would show the normalized message.
- Marshal.ExtractLong: the pending OverflowError is a flag, not an exception triple in the slot.
- `PyUnicode_AsWideCharString` failing in `extract(wstring)` (the value is then left unchanged) is not modelled: every str converts.
- The `assert`s that only hold in debug builds are preconditions: `assert(callable)` in `call`, and `assert(type() == DICT)` in `Dict` and `Dict::contains`. `List`'s `_validate` is left out.
- Dicts.Dict.Contains: dict keys are strings only.
- SysPath.AppendToSysPath: requires every `sys.path` entry to be a live str, as in a normal interpreter.
- Interpreter.Call: requires the callee's result, the arguments and the raised exception's objects to exist before the call.
- `Var(name, parent)` (the constructors through a parent dict), `Var::var`, `injectVar`/`getVar`, `Dict::clear`, `Dict::dict`/`list`/`moduledict`. They are thin wrappers over dict lookups with debug asserts.
- `GILLocker::isLocked` is defined in cppy3/cppy3.cpp:584 but not declared in the class (cppy3/cppy3.hpp:698-709). It is modelled as the predicate `Gil.GILLocker.IsLocked`, read as `PyGILState_Check`.

## Findings

| source | as written | input that shows it | evidently intended | confidence | as-written member | corrected member |
|---|---|---|---|---|---|---|
| cppy3/cppy3.cpp:486 | `p = Var(PyDict_GetItemString(...))` is the implicit memberwise assignment, because `Var` has no `operator=`. The old object is never decremented, and the temporary's destructor takes away the count the new pointer was given. | `lookupObject(m, "d.x")` where `d` is a dict holding `x`: `d` keeps one extra count and `x` loses one. | `p.reset(PyDict_GetItemString(...))`: release the old object and borrow the new one. | high; not executed | Handle.MemberwiseAssignUnbalances | Handle.ResetKeepsBalance (used by Lookup.AdvanceByKey) |
| cppy3/cppy3.cpp:534-538 | `PyTuple_SetItem(argsTuple, i, args[i])` steals the reference the caller's `Var` in `args` still owns. When `argsTuple` dies, each argument loses a count it never received. | `call(f, {Var::from(convert(1))})`: the argument's only count is its Var's, and after the call it is 0 while the Var still holds it. | `Py_XINCREF(args[i])` before `PyTuple_SetItem`, as `getErrorObject` does for the traceback (cppy3/cppy3.cpp:255-256). | high; not executed | Interpreter.StolenArgumentFreed | Interpreter.ArgsTupleBalanced (used by Interpreter.FillTuple and Interpreter.Call) |
| cppy3/cppy3.cpp:108 | `Var pyPath(convert(path))` borrows the new reference `convert` returns. The str's count is incremented again, and only one count is released when `pyPath` dies. | `appendToSysPath({L"/x"})` with `/x` already in `sys.path`: the new str keeps a count nobody owns. | `Var pyPath = Var::from(convert(path))`. | high; not executed | Handle.BorrowOfOwnedLeaks | Handle.AdoptOfOwnedBalanced (used by SysPath.Convert) |
| cppy3/cppy3.cpp:412-440 | `PyLong_Check` comes before `PyBool_Check`, and `bool` is a subclass of `int` in Python. The BOOL branch can never be taken. | `Var(Py_True).type()` is LONG. | Test `PyBool_Check` before `PyLong_Check`, so that BOOL is reachable. | medium; not executed | Marshal.TypeOfNeverBool | Marshal.TypeOfCorrected |

=== FILE: dicts.dfy ===
/**
 * The Dict adapter's membership test: a Var on a Python dict, asked
 * whether a string key is present.
 */
module Dicts {
  import opened Wrappers
  import opened PyRuntime
  import opened Handle

  /** The entries of the object p points to, when it is a dict. */
  function DictEntries(heap: map<Id, Obj>, p: Ptr): Option<map<string, Id>>
  {
    if p.Ref? && p.id in heap && heap[p.id].DictObj? then Some(heap[p.id].entries) else None
  }

  /** The adapter: a Var whose object is a dict. */
  class Dict {
    const handle: Var

    /** Dict(PyObject *o): a Var borrowing o, which must be a dict. */
    constructor (rt: Runtime, o: Ptr)
      requires DictEntries(rt.heap, o).Some?
      modifies rt`refs
      ensures handle.rt == rt && handle.o == o && fresh(handle)
      ensures rt.refs == old(rt.refs) + Held(o)
    {
      handle := new Var.Borrow(rt, o);
    }

    /**
     * contains(name): the key is converted to a new str adopted by a Var
     * (newRef), PyDict_Contains looks it up, and the Var releases it; the
     * answer is whether the dict has the key, and every count is back
     * where it was.
     */
    method Contains(name: string) returns (b: bool)
      requires handle.rt.Valid() && DictEntries(handle.rt.heap, handle.o).Some?
      modifies handle.rt`heap, handle.rt`refs, handle.rt`next
      ensures handle.rt.Valid()
      ensures b <==> name in DictEntries(old(handle.rt.heap), handle.o).value
      ensures handle.rt.refs == old(handle.rt.refs)
      ensures forall x :: x in old(handle.rt.heap) ==> x in handle.rt.heap && handle.rt.heap[x] == old(handle.rt.heap)[x]
    {
      var rt := handle.rt;
      var key := new Var.Empty(rt);
      var id := rt.Alloc(UnicodeObj(name));      // convert(name): a new reference
      key.NewRef(Ref(id));
      b := name in DictEntries(rt.heap, handle.o).value;
      key.Decref();                              // ~Var
      assert forall x :: x in rt.refs ==> x in old(rt.refs) + multiset{id};
    }
  }
}

=== FILE: errors.dfy ===
/**
 * The exception bridge: error(), getErrorObject() and
 * rethrowPythonException(), over the runtime's pending-error slot.
 */
module ErrorBridge {
  import opened Wrappers
  import opened PyRuntime
  import opened Exceptions
  import opened Text

  /**
   * pyUnicodeToWstring(PyObject_Str(p)): the text of str(p). CPython renders a
   * NULL argument as "<NULL>"; a failed str() yields the empty text here.
   */
  function StrText(heap: map<Id, Obj>, p: Ptr, or: Oracle): (s: string)
    ensures p == Null ==> s == "<NULL>"
    ensures Deref(heap, p).Some? && Deref(heap, p).value.UnicodeObj? ==> s == Deref(heap, p).value.text
    ensures Deref(heap, p).Some? && Deref(heap, p).value.LongObj? ==> DecimalValue(s) == Deref(heap, p).value.n
  {
    if p == Null then "<NULL>"
    else match Deref(heap, p)
      case None => []
      case Some(obj) => match PyStr(obj, or) case Success(s) => s case Failure(_) => []
  }

  /** The trace lines kept from format_tb's list: the parsable entries, in list order. */
  function TraceLines(items: seq<TbItem>): (lines: seq<string>)
    ensures |lines| <= |items|
  {
    if items == [] then []
    else
      var last := items[|items| - 1];
      TraceLines(items[..|items| - 1]) + (if last.TbText? then [last.text] else [])
  }

  lemma {:induction false} TraceLinesAppend(a: seq<TbItem>, b: seq<TbItem>)
    ensures TraceLines(a + b) == TraceLines(a) + TraceLines(b)
    decreases |b|
  {
    if b == [] {
      assert a + b == a;
    } else {
      assert (a + b)[..|a + b| - 1] == a + b[..|b| - 1];
      TraceLinesAppend(a, b[..|b| - 1]);
    }
  }

  /** Every kept line is the text of an entry; entries that fail to parse are skipped. */
  lemma {:induction false} TraceLinesFromItems(items: seq<TbItem>)
    ensures forall l :: l in TraceLines(items) ==> TbText(l) in items
    ensures (forall k :: 0 <= k < |items| ==> items[k].TbUnparsable?) ==> TraceLines(items) == []
  {
    if items != [] {
      var init := items[..|items| - 1];
      TraceLinesFromItems(init);
      assert forall x :: x in init ==> x in items;
    }
  }

  /** When every entry parses, the trace is the list itself, line for line and in order. */
  lemma {:induction false} TraceLinesAllText(items: seq<TbItem>)
    requires forall k :: 0 <= k < |items| ==> items[k].TbText?
    ensures |TraceLines(items)| == |items|
    ensures forall k :: 0 <= k < |items| ==> TraceLines(items)[k] == items[k].text
  {
    if items != [] {
      TraceLinesAllText(items[..|items| - 1]);
    }
  }

  /** The trace part of a snapshot: empty without a traceback, without format_tb, or when the call raises. */
  function SnapshotTrace(heap: map<Id, Obj>, tb: Ptr, or: Oracle): seq<string>
  {
    if tb != Null && or.traceback.FormatTb? then
      match Deref(heap, tb)
      case None => []
      case Some(tbObj) =>
        match or.formatTb(tbObj)
        case Failure(_) => []
        case Success(items) => TraceLines(items)
    else []
  }

  /** The snapshot getErrorObject() builds from the slot it fetches. */
  function Snapshot(heap: map<Id, Obj>, slot: Option<ErrTriple>, or: Oracle): (d: ExceptionData)
    ensures slot == None ==> d == NoException
    ensures slot.Some? && slot.value.excTraceback == Null ==> d.trace == []
    ensures slot.Some? && !or.traceback.FormatTb? ==> d.trace == []
    ensures slot.Some? && Deref(heap, slot.value.excTraceback).Some? &&
            or.formatTb(Deref(heap, slot.value.excTraceback).value).Failure? ==>
              d.trace == []
  {
    match slot
    case None => NoException
    case Some(t) =>
      ExceptionData(StrText(heap, t.excType, or), StrText(heap, t.excValue, or),
                    SnapshotTrace(heap, t.excTraceback, or))
  }

  /** The exception left pending by the last format_tb entry PyArg_ParseTuple failed on. */
  function LastParseError(items: seq<TbItem>): Option<ErrTriple>
  {
    if items == [] then None
    else if items[|items| - 1].TbUnparsable? then Some(items[|items| - 1].raised)
    else LastParseError(items[..|items| - 1])
  }

  /**
   * The pending error a failed parse leaves: none exactly when every entry
   * parses, otherwise the one raised by the last entry that does not.
   */
  lemma {:induction false} LastParseErrorMeans(items: seq<TbItem>)
    ensures LastParseError(items) == None <==> forall k :: 0 <= k < |items| ==> items[k].TbText?
    ensures LastParseError(items).Some? ==>
              exists k :: 0 <= k < |items| && items[k] == TbUnparsable(LastParseError(items).value)
                          && forall j :: k < j < |items| ==> items[j].TbText?
  {
    LastParseErrorNone(items);
    if LastParseError(items).Some? {
      var k := LastParseErrorAt(items);
    }
  }

  lemma {:induction false} LastParseErrorNone(items: seq<TbItem>)
    ensures LastParseError(items) == None <==> forall k :: 0 <= k < |items| ==> items[k].TbText?
  {
    if items != [] {
      var init := items[..|items| - 1];
      LastParseErrorNone(init);
      assert forall k :: 0 <= k < |init| ==> init[k] == items[k];
    }
  }

  lemma {:induction false} LastParseErrorAt(items: seq<TbItem>) returns (k: nat)
    requires LastParseError(items).Some?
    ensures k < |items| && items[k] == TbUnparsable(LastParseError(items).value)
    ensures forall j :: k < j < |items| ==> items[j].TbText?
  {
    var last := |items| - 1;
    if items[last].TbUnparsable? {
      k := last;
    } else {
      var init := items[..last];
      k := LastParseErrorAt(init);
      assert forall j :: k < j < |init| ==> init[j] == items[j];
    }
  }

  /**
   * What getErrorObject(true) leaves pending after fetching e, since it never
   * calls PyErr_Clear: the exception the traceback import raised, else the
   * one format_tb raised, else the one of the last entry that failed to parse.
   */
  function CaptureRaised(heap: map<Id, Obj>, e: ErrTriple, or: Oracle): Option<ErrTriple>
  {
    match or.traceback
    case ImportRaises(x) => Some(x)
    case NoFormatTb => None
    case FormatTb =>
      if e.excTraceback == Null then None
      else match Deref(heap, e.excTraceback)
        case None => None
        case Some(tbObj) =>
          match or.formatTb(tbObj)
          case Failure(x) => Some(x)
          case Success(items) => LastParseError(items)
  }

  /** The traceback capture of e goes through without raising anything. */
  ghost predicate QuietCapture(heap: map<Id, Obj>, e: ErrTriple, or: Oracle)
  {
    && !or.traceback.ImportRaises?
    && (or.traceback.FormatTb? && e.excTraceback != Null && Deref(heap, e.excTraceback).Some? ==>
          var listed := or.formatTb(Deref(heap, e.excTraceback).value);
          listed.Success? && forall k :: 0 <= k < |listed.value| ==> listed.value[k].TbText?)
  }

  /** Clearing leaves nothing pending exactly when the traceback capture raises nothing. */
  lemma CaptureRaisedNone(heap: map<Id, Obj>, e: ErrTriple, or: Oracle)
    ensures CaptureRaised(heap, e, or) == None <==> QuietCapture(heap, e, or)
  {
    if or.traceback.FormatTb? && e.excTraceback != Null && Deref(heap, e.excTraceback).Some? {
      var listed := or.formatTb(Deref(heap, e.excTraceback).value);
      if listed.Success? {
        LastParseErrorMeans(listed.value);
      }
    }
  }

  /** getErrorObject(clearError) as a function: the snapshot and the slot left behind. */
  function Capture(heap: map<Id, Obj>, slot: Option<ErrTriple>, clearError: bool, or: Oracle)
    : (r: (ExceptionData, Option<ErrTriple>))
    ensures slot == None ==> r == (NoException, None)
    ensures !clearError ==> r.1 == slot
    ensures clearError && slot.Some? ==> r.1 == CaptureRaised(heap, slot.value, or)
  {
    match slot
    case None => (NoException, None)
    case Some(e) => (Snapshot(heap, slot, or), if clearError then CaptureRaised(heap, e, or) else slot)
  }

  /** rethrowPythonException() as a function: the exception thrown, if any, and the slot left behind. */
  function Rethrow(heap: map<Id, Obj>, initialized: bool, slot: Option<ErrTriple>, or: Oracle)
    : (r: (Option<ExceptionData>, Option<ErrTriple>))
    ensures r.0.Some? <==> initialized && slot.Some?
    ensures r.0.Some? ==> r.0.value == Snapshot(heap, slot, or) && r.1 == CaptureRaised(heap, slot.value, or)
    ensures r.0 == None ==> r.1 == slot
  {
    if initialized && slot.Some? then
      var (d, s) := Capture(heap, slot, true, or);
      (Some(d), s)
    else (None, slot)
  }

  /** After a throw, error() is false exactly when capturing the thrown exception's traceback raised nothing. */
  lemma RethrowLeavesError(heap: map<Id, Obj>, slot: Option<ErrTriple>, or: Oracle)
    requires slot.Some?
    ensures Rethrow(heap, true, slot, or).0.Some?
    ensures Rethrow(heap, true, slot, or).1 == None <==> QuietCapture(heap, slot.value, or)
  {
    CaptureRaisedNone(heap, slot.value, or);
  }

  /** getErrorObject(clearError): fetch the pending error, describe it, then restore or discard it. */
  method GetErrorObject(rt: Runtime, clearError: bool, or: Oracle) returns (d: ExceptionData)
    modifies rt`err
    ensures (d, rt.err) == Capture(rt.heap, old(rt.err), clearError, or)
  {
    var excType: string := [];
    var message: string := [];
    var trace: seq<string> := [];
    if rt.err.Some? {
      var fetched := rt.err.value;
      rt.err := None;                                  // PyErr_Fetch
      var tbModule := or.traceback;                     // PyImport_Import("traceback")
      if tbModule.ImportRaises? {
        rt.err := Some(tbModule.raised);
      }
      excType := StrText(rt.heap, fetched.excType, or);
      message := StrText(rt.heap, fetched.excValue, or);
      if fetched.excTraceback != Null && tbModule.FormatTb? {
        var tbObj := Deref(rt.heap, fetched.excTraceback);
        if tbObj.Some? {
          var list := or.formatTb(tbObj.value);
          if list.Failure? {
            rt.err := Some(list.error);
          } else {
            trace := ParseEntries(rt, list.value);
          }
        }
      }
      if !clearError {
        rt.err := Some(fetched);                       // PyErr_Restore
      }
    }
    d := ExceptionData(excType, message, trace);
  }

  /** The loop over format_tb's list: each entry that parses is kept, each that does not leaves its exception pending. */
  method ParseEntries(rt: Runtime, items: seq<TbItem>) returns (trace: seq<string>)
    requires rt.err == None
    modifies rt`err
    ensures trace == TraceLines(items)
    ensures rt.err == LastParseError(items)
  {
    trace := [];
    for i := 0 to |items|
      invariant trace == TraceLines(items[..i])
      invariant rt.err == LastParseError(items[..i])
    {
      assert items[..i + 1][..i] == items[..i];
      if items[i].TbText? {
        trace := trace + [items[i].text];
      } else {
        rt.err := Some(items[i].raised);
      }
    }
    assert items[..|items|] == items;
  }

  /** rethrowPythonException(): when error() holds, capture with clearing and throw the snapshot. */
  method RethrowPythonException(rt: Runtime, or: Oracle) returns (thrown: Option<ExceptionData>)
    modifies rt`err
    ensures (thrown, rt.err) == Rethrow(rt.heap, rt.initialized, old(rt.err), or)
    ensures thrown.Some? <==> old(rt.Error())
    ensures thrown.Some? ==> rt.err == CaptureRaised(rt.heap, old(rt.err).value, or)
  {
    thrown := None;
    if rt.Error() {
      var d := GetErrorObject(rt, true, or);
      thrown := Some(d);
    }
  }
}

=== FILE: exceptions.dfy ===
/**
 * PyExceptionData and PythonException: the snapshot of a Python error that
 * crosses into C++ as an exception, and its text form.
 */
module Exceptions {
  import opened Text

  /** The captured exception: str(type), str(value) and the format_tb lines. */
  datatype ExceptionData = ExceptionData(excType: string, reason: string, trace: seq<string>)

  /** PyExceptionData(reason): a snapshot with only a reason, used for errors raised by cppy3 itself. */
  function FromReason(reason: string): (d: ExceptionData)
    ensures d.excType == [] && d.trace == [] && d.reason == reason
    ensures IsEmpty(d) <==> reason == []
  {
    ExceptionData([], reason, [])
  }

  /** The snapshot of "no error pending". */
  const NoException: ExceptionData := ExceptionData([], [], [])

  /** isEmpty(): the type and the reason are both empty; the trace plays no part. */
  predicate IsEmpty(d: ExceptionData)
  {
    d.excType == [] && d.reason == []
  }

  /** Each trace line followed by a newline, in order. */
  function TraceText(trace: seq<string>): (text: string)
    ensures |text| >= |trace|
    ensures trace != [] ==> text[|text| - 1] == '\n'
  {
    if trace == [] then [] else TraceText(trace[..|trace| - 1]) + trace[|trace| - 1] + ['\n']
  }

  /** toString(): empty for an empty snapshot, otherwise type, reason and trace, one per line. */
  function ToString(d: ExceptionData): (text: string)
  {
    if IsEmpty(d) then [] else d.excType + ['\n'] + d.reason + ['\n'] + TraceText(d.trace)
  }

  /** PythonException::what(): the text of toString(), its UTF-8 encoding left abstract. */
  function What(d: ExceptionData): (text: string)
    ensures text == [] <==> IsEmpty(d)
  {
    ToString(d)
  }

  lemma {:induction false} TraceTextAppend(a: seq<string>, b: seq<string>)
    ensures TraceText(a + b) == TraceText(a) + TraceText(b)
    decreases |b|
  {
    if b == [] {
      assert a + b == a;
    } else {
      var b', last := b[..|b| - 1], b[|b| - 1];
      assert TraceText(a + b) == TraceText(a + b') + last + ['\n'] by {
        assert (a + b)[..|a + b| - 1] == a + b';
        assert (a + b)[|a + b| - 1] == last;
      }
      TraceTextAppend(a, b');
      LineAfter(TraceText(a), TraceText(b'), TraceText(a + b'), last);
    }
  }

  /** One more line after a concatenation belongs to its second part. */
  lemma LineAfter(front: string, back: string, whole: string, line: string)
    requires whole == front + back
    ensures whole + line + ['\n'] == front + (back + line + ['\n'])
  {
  }

  /** isEmpty() ignores the trace and holds exactly when toString() is empty. */
  lemma IsEmptyIgnoresTrace(d: ExceptionData, trace: seq<string>)
    ensures IsEmpty(d) == IsEmpty(d.(trace := trace))
    ensures IsEmpty(d) <==> ToString(d) == []
  {
  }

  predicate NoNewline(s: string)
  {
    '\n' !in s
  }

  lemma {:induction false} TraceTextLines(trace: seq<string>)
    requires forall k :: 0 <= k < |trace| ==> NoNewline(trace[k])
    ensures SplitOn(TraceText(trace), '\n') == trace
    decreases |trace|
  {
    if trace != [] {
      var t := trace[0];
      var rest := trace[1..];
      assert trace == [t] + rest;
      TraceTextAppend([t], rest);
      assert TraceText([t]) == t + ['\n'] by {
        assert [t][..0] == [];
      }
      SplitOnCons(t, '\n', TraceText(rest));
      TraceTextLines(rest);
    }
  }

  /**
   * The text of a non-empty snapshot determines the snapshot: when no field
   * holds a newline, its lines are the type, the reason and the trace lines.
   */
  lemma ToStringLines(d: ExceptionData)
    requires !IsEmpty(d)
    requires NoNewline(d.excType) && NoNewline(d.reason)
    requires forall k :: 0 <= k < |d.trace| ==> NoNewline(d.trace[k])
    ensures SplitOn(ToString(d), '\n') == [d.excType, d.reason] + d.trace
  {
    var tail := TraceText(d.trace);
    var rest := d.reason + ['\n'] + tail;
    ToStringShape(d);
    SplitOnCons(d.excType, '\n', rest);
    SplitOnCons(d.reason, '\n', tail);
    TraceTextLines(d.trace);
    TwoInFront(d.excType, d.reason, SplitOn(ToString(d), '\n'), SplitOn(rest, '\n'), d.trace);
  }

  /** Two pieces put in front one at a time are the pair in front. */
  lemma TwoInFront<T>(a: T, b: T, x: seq<T>, y: seq<T>, z: seq<T>)
    requires x == [a] + y && y == [b] + z
    ensures x == [a, b] + z
  {
  }

  /** The text of a non-empty snapshot: the type line, then the rest. */
  lemma ToStringShape(d: ExceptionData)
    requires !IsEmpty(d)
    ensures ToString(d) == d.excType + ['\n'] + (d.reason + ['\n'] + TraceText(d.trace))
  {
  }

  /**
   * The lines of the text of '\n'-terminated entries, as format_tb gives
   * them: each entry's own lines and then the empty line the extra '\n' makes.
   */
  function EntryLines(trace: seq<string>): (lines: seq<string>)
    ensures |lines| >= |trace|
  {
    if trace == [] then []
    else EntryLines(trace[..|trace| - 1]) + SplitOn(trace[|trace| - 1], '\n') + [""]
  }

  /** Every entry ends in a newline, as format_tb's entries do. */
  predicate Terminated(trace: seq<string>)
  {
    forall k :: 0 <= k < |trace| ==> trace[k] != [] && trace[k][|trace[k]| - 1] == '\n'
  }

  /** The trace text of '\n'-terminated entries splits into their lines, each entry followed by an empty line. */
  lemma {:induction false} TraceTextLinesTerminated(trace: seq<string>)
    requires Terminated(trace)
    ensures SplitOn(TraceText(trace), '\n') == EntryLines(trace)
    decreases |trace|
  {
    if trace != [] {
      var front, last := trace[..|trace| - 1], trace[|trace| - 1];
      var head, lines := TraceText(front), EntryLines(front);
      assert SplitOn(head, '\n') == lines by {
        assert Terminated(front) by {
          assert forall k :: 0 <= k < |front| ==> front[k] == trace[k];
        }
        TraceTextLinesTerminated(front);
      }
      var entry := SplitOn(last, '\n');
      assert SplitOn(last + ['\n'], '\n') == entry + [""] by {
        TerminatedEntryLines(last);
      }
      assert SplitOn(head + (last + ['\n']), '\n') == lines + (entry + [""]) by {
        SplitOnAppend(head, last + ['\n'], '\n');
      }
      assert TraceText(trace) == head + (last + ['\n']);
      assert EntryLines(trace) == lines + entry + [""];
    }
  }

  /** One '\n'-terminated entry and the newline after it: its lines, then an empty one. */
  lemma TerminatedEntryLines(e: string)
    requires e != [] && e[|e| - 1] == '\n'
    ensures SplitOn(e + ['\n'], '\n') == SplitOn(e, '\n') + [""]
  {
    SplitOnAppend(e, ['\n'], '\n');
    SplitTrailingDelimiter([], '\n');
    assert [] + ['\n'] == ['\n'];
  }

  /**
   * The lines of a non-empty snapshot whose type and reason hold no newline
   * and whose trace entries end in one: the type, the reason, then each
   * entry's lines followed by an empty line.
   */
  lemma ToStringLinesTerminated(d: ExceptionData)
    requires !IsEmpty(d)
    requires NoNewline(d.excType) && NoNewline(d.reason) && Terminated(d.trace)
    ensures SplitOn(ToString(d), '\n') == [d.excType, d.reason] + EntryLines(d.trace)
  {
    var tail := TraceText(d.trace);
    var rest := d.reason + ['\n'] + tail;
    ToStringShape(d);
    SplitOnCons(d.excType, '\n', rest);
    SplitOnCons(d.reason, '\n', tail);
    TraceTextLinesTerminated(d.trace);
    TwoInFront(d.excType, d.reason, SplitOn(ToString(d), '\n'), SplitOn(rest, '\n'), EntryLines(d.trace));
  }

  /** PyExceptionData::toString(), with its loop over the trace. */
  method BuildString(d: ExceptionData) returns (text: string)
    ensures text == ToString(d)
    ensures text == [] <==> IsEmpty(d)
  {
    var traceText := [];
    for i := 0 to |d.trace|
      invariant traceText == TraceText(d.trace[..i])
    {
      assert d.trace[..i + 1][..i] == d.trace[..i];
      traceText := traceText + d.trace[i] + ['\n'];
    }
    assert d.trace[..|d.trace|] == d.trace;
    text := if IsEmpty(d) then [] else d.excType + ['\n'] + d.reason + ['\n'] + traceText;
  }
}

=== FILE: gil.dfy ===
/**
 * The GIL guards, as transitions on the calling thread's "holds the GIL"
 * flag: GILLocker (re-entrant, with an explicit lock state),
 * ScopedGILRelease and ScopedGILLock.
 */
module Gil {
  import opened PyRuntime

  /**
   * GILLocker: the constructor locks, the destructor (here Release, called
   * where the C++ object goes out of scope) releases; lock and release are
   * each guarded by the locked flag, so repeating either does nothing.
   */
  class GILLocker {
    const rt: Runtime
    /** _locked. */
    var locked: bool
    /** _pyGILState: whether PyGILState_Ensure found the GIL already held by this thread. */
    var state: bool

    constructor (rt: Runtime)
      modifies rt`gilHeld
      ensures this.rt == rt && locked && rt.gilHeld
      ensures state == old(rt.gilHeld)
    {
      this.rt := rt;
      locked := false;
      state := false;
      new;
      Lock();
    }

    /** lock(): acquire only when not locked yet. */
    method Lock()
      modifies this`locked, this`state, rt`gilHeld
      ensures locked
      ensures old(locked) ==> state == old(state) && rt.gilHeld == old(rt.gilHeld)
      ensures !old(locked) ==> state == old(rt.gilHeld) && rt.gilHeld
    {
      if !locked {
        state := rt.GilEnsure();
        locked := true;
      }
    }

    /** release(): give back what lock() took, only when locked. */
    method Release()
      requires locked ==> rt.gilHeld
      modifies this`locked, rt`gilHeld
      ensures !locked && state == old(state)
      ensures old(locked) ==> rt.gilHeld == old(state)
      ensures !old(locked) ==> rt.gilHeld == old(rt.gilHeld)
    {
      if locked {
        rt.GilRelease(state);
        locked := false;
      }
    }

    /** isLocked(): PyGILState_Check() == 1, the calling thread holds the GIL. */
    predicate IsLocked()
      reads rt
    {
      rt.gilHeld
    }
  }

  /** ScopedGILRelease: PyEval_SaveThread on construction, PyEval_RestoreThread on destruction. */
  class ScopedGILRelease {
    const rt: Runtime

    constructor (rt: Runtime)
      requires rt.gilHeld
      modifies rt`gilHeld
      ensures this.rt == rt && !rt.gilHeld
    {
      this.rt := rt;
      new;
      rt.gilHeld := false;
    }

    /** The destructor: take the GIL back for the saved thread state. */
    method Restore()
      requires !rt.gilHeld
      modifies rt`gilHeld
      ensures rt.gilHeld
    {
      rt.gilHeld := true;
    }
  }

  /** ScopedGILLock: PyGILState_Ensure on construction, PyGILState_Release of that state on destruction. */
  class ScopedGILLock {
    const rt: Runtime
    var state: bool

    constructor (rt: Runtime)
      modifies rt`gilHeld
      ensures this.rt == rt && rt.gilHeld && state == old(rt.gilHeld)
    {
      this.rt := rt;
      new;
      state := rt.GilEnsure();
    }

    /** The destructor. */
    method Release()
      requires rt.gilHeld
      modifies rt`gilHeld
      ensures rt.gilHeld == state
    {
      rt.GilRelease(state);
    }
  }

  /**
   * Guards nest like a recursive mutex: inside two GILLockers the thread
   * holds the GIL, and destroying them innermost first restores the flag
   * found before the outer one. Only the constructor and the destructor
   * are called, since lock() and release() are private to the class.
   */
  method NestedLockers(rt: Runtime) returns (heldInside: bool)
    modifies rt`gilHeld
    ensures heldInside
    ensures rt.gilHeld == old(rt.gilHeld)
  {
    var outer := new GILLocker(rt);
    var inner := new GILLocker(rt);
    heldInside := inner.IsLocked();
    inner.Release();
    outer.Release();
  }

  /**
   * The GIL scenario of the test suite: with the GIL held, a
   * ScopedGILRelease drops it, a GILLocker inside takes it back, the
   * locker's end drops it again and the release's end restores it.
   */
  method ReleaseThenRelock(rt: Runtime) returns (inRelease: bool, inLocker: bool, afterLocker: bool)
    requires rt.gilHeld
    modifies rt`gilHeld
    ensures !inRelease && inLocker && !afterLocker
    ensures rt.gilHeld
  {
    var release := new ScopedGILRelease(rt);
    inRelease := rt.gilHeld;
    var locker := new GILLocker(rt);
    inLocker := locker.IsLocked();
    locker.Release();
    afterLocker := rt.gilHeld;
    release.Restore();
  }
}

=== FILE: handle.dfy ===
/**
 * Var, the reference-counted PyObject* holder, and the reference ledger that
 * says when its bookkeeping is right: the counts in the runtime equal the
 * references that somebody owns ("balanced"), a non-NULL Var owning one.
 */
module Handle {
  import opened PyRuntime

  /** reset(o) on a holder of `held`: nothing when o == held, else drop held and take o. */
  function ResetRefs(refs: multiset<Id>, held: Ptr, o: Ptr): multiset<Id>
  {
    if o == held then refs else refs - Held(held) + Held(o)
  }

  /** newRef(o) on a holder of `held`: drop held unless o == held; o is taken as it is. */
  function NewRefRefs(refs: multiset<Id>, held: Ptr, o: Ptr): multiset<Id>
  {
    if o == held then refs else refs - Held(held)
  }

  /** A balanced ledger: every count is owned by exactly one owner. */
  predicate Balanced(refs: multiset<Id>, owners: multiset<Id>)
  {
    refs == owners
  }

  /**
   * reset() keeps the ledger balanced: the holder stops owning the old
   * object and owns the new one, borrowed from whoever owns it already.
   */
  lemma ResetKeepsBalance(refs: multiset<Id>, others: multiset<Id>, held: Ptr, o: Ptr)
    requires Balanced(refs, others + Held(held))
    ensures Balanced(ResetRefs(refs, held, o), others + Held(o))
  {
    if o != held {
      assert refs - Held(held) == others;
    }
  }

  /** reset() changes exactly two counts, by one each: the old object's down, the new one's up. */
  lemma ResetCounts(refs: multiset<Id>, held: Ptr, o: Ptr, x: Id)
    requires held.Ref? ==> held.id in refs
    requires o != held
    ensures ResetRefs(refs, held, o)[x] == refs[x] - Held(held)[x] + Held(o)[x]
  {
  }

  /**
   * newRef() adopts a reference the caller owns: the caller's reference
   * becomes the holder's, no count is added, and the old one is dropped.
   */
  lemma NewRefKeepsBalance(refs: multiset<Id>, others: multiset<Id>, held: Ptr, o: Ptr)
    requires o != held
    requires Balanced(refs, others + Held(o) + Held(held))
    ensures Balanced(NewRefRefs(refs, held, o), others + Held(o))
  {
    assert refs - Held(held) == others + Held(o);
  }

  /**
   * newRef(o) when o is already held adopts nothing: the caller's owned
   * reference is left without an owner, one count too many.
   */
  lemma NewRefSamePointerLeaks(refs: multiset<Id>, others: multiset<Id>, o: Ptr)
    requires o.Ref?
    requires Balanced(refs, others + Held(o) + Held(o))
    ensures NewRefRefs(refs, o, o) == refs
    ensures NewRefRefs(refs, o, o)[o.id] == (others + Held(o))[o.id] + 1
  {
  }

  /**
   * `p = Var(q)` with the compiler-generated assignment: the temporary
   * Var(q) takes a count, its fields are copied into p, and its destructor
   * drops the count again. p's old object is never released.
   */
  function MemberwiseAssignRefs(refs: multiset<Id>, held: Ptr, q: Ptr): multiset<Id>
  {
    refs + Held(q) - Held(q)
  }

  /**
   * The compiler-generated assignment unbalances the ledger: the old object
   * keeps a count nobody owns and the new one is held without a count.
   */
  lemma MemberwiseAssignUnbalances(refs: multiset<Id>, others: multiset<Id>, held: Ptr, q: Ptr)
    requires held.Ref? && q.Ref? && held != q
    requires Balanced(refs, others + Held(held))
    ensures MemberwiseAssignRefs(refs, held, q) == refs
    ensures MemberwiseAssignRefs(refs, held, q)[held.id] == (others + Held(q))[held.id] + 1
    ensures MemberwiseAssignRefs(refs, held, q)[q.id] + 1 == (others + Held(q))[q.id]
    ensures !Balanced(MemberwiseAssignRefs(refs, held, q), others + Held(q))
  {
    assert refs + Held(q) - Held(q) == refs;
    assert refs[held.id] == others[held.id] + 1;
  }

  /**
   * `Var pyPath(convert(path))` borrows a reference the caller already owns
   * (convert returns a new one): once the Var is destroyed, the count it
   * took is released but the caller's is not, so the object leaks.
   */
  lemma BorrowOfOwnedLeaks(refs: multiset<Id>, others: multiset<Id>, x: Id)
    requires Balanced(refs, others + multiset{x})
    ensures ResetRefs(refs, Null, Ref(x)) - multiset{x} == refs
    ensures !Balanced(ResetRefs(refs, Null, Ref(x)) - multiset{x}, others)
  {
    assert refs + multiset{x} - multiset{x} == refs;
    assert refs[x] == others[x] + 1;
  }

  /** Adopting the owned reference instead (Var::from) leaves nothing behind once the Var is destroyed. */
  lemma AdoptOfOwnedBalanced(refs: multiset<Id>, others: multiset<Id>, x: Id)
    requires Balanced(refs, others + multiset{x})
    ensures Balanced(NewRefRefs(refs, Null, Ref(x)), others + multiset{x})
    ensures Balanced(NewRefRefs(refs, Null, Ref(x)) - multiset{x}, others)
  {
    assert refs - multiset{x} == others;
  }

  /** The holder of one PyObject*, sharing the runtime's reference counts. */
  class Var {
    const rt: Runtime
    var o: Ptr

    /** Var(): the empty holder. */
    constructor Empty(rt: Runtime)
      ensures this.rt == rt && o == Null
    {
      this.rt := rt;
      o := Null;
    }

    /** Var(PyObject*): borrow, taking a count of its own. */
    constructor Borrow(rt: Runtime, p: Ptr)
      modifies rt`refs
      ensures this.rt == rt && o == p
      ensures rt.refs == old(rt.refs) + Held(p)
    {
      this.rt := rt;
      o := Null;
      new;
      Reset(p);
    }

    /** Var(const Var&): share the other's object and add exactly one count. */
    constructor Copy(other: Var)
      modifies other.rt`refs
      ensures rt == other.rt && o == other.o
      ensures rt.refs == old(other.rt.refs) + Held(other.o)
    {
      rt := other.rt;
      o := Null;
      new;
      Reset(other.o);
    }

    /** Var::from(o): adopt an owned reference without a count of its own. */
    static method From(rt: Runtime, p: Ptr) returns (v: Var)
      modifies rt`refs
      ensures fresh(v) && v.rt == rt && v.o == p
      ensures rt.refs == old(rt.refs)
    {
      v := new Var.Empty(rt);
      v.NewRef(p);
    }

    /** reset(o): borrow o, releasing the old object. */
    method Reset(p: Ptr)
      modifies this`o, rt`refs
      ensures o == p
      ensures rt.refs == ResetRefs(old(rt.refs), old(o), p)
    {
      if p != o {
        Decref();
        o := p;
        rt.refs := rt.refs + Held(o);
      }
    }

    /** newRef(o): adopt o, releasing the old object unless it is o itself. */
    method NewRef(p: Ptr)
      modifies this`o, rt`refs
      ensures o == p
      ensures rt.refs == NewRefRefs(old(rt.refs), old(o), p)
    {
      if p != o {
        Decref();
        o := p;
      }
    }

    /** decref(), also the whole of ~Var(): one count less when non-NULL; the held address stays. */
    method Decref()
      modifies rt`refs
      ensures rt.refs == old(rt.refs) - Held(o)
      ensures o.Ref? && o.id in old(rt.refs) ==> rt.refs[o.id] == old(rt.refs)[o.id] - 1
      ensures o == Null ==> rt.refs == old(rt.refs)
    {
      rt.refs := rt.refs - Held(o);
    }

    /** data(). */
    function Data(): Ptr
      reads this
    {
      o
    }

    /** null(): the held pointer is NULL. */
    predicate IsNull()
      reads this
    {
      o == Null
    }

    /** none(): the held pointer is NULL or Py_None; null() implies none(). */
    function IsNone(): (b: bool)
      reads this
      ensures IsNull() ==> b
      ensures b ==> o == Null || o == PyNone
      ensures o == PyNone ==> b
    {
      IsNull() || o == PyNone
    }
  }
}

=== FILE: interp.dfy ===
/**
 * Running code in the interpreter: exec, eval with its fallback to exec,
 * the wide-string exec with its coding header, and call.
 */
module Interpreter {
  import opened Wrappers
  import opened PyRuntime
  import opened Exceptions
  import opened Text
  import opened Handle
  import opened ErrorBridge
  import opened Gil
  import Lookup

  /** Py_file_input (a module body) or Py_eval_input (one expression). */
  datatype RunMode = FileInput | EvalInput

  /** PyRun_String(script, mode, mainDict, mainDict): what running the script in __main__ gives. */
  type Runner = (string, RunMode) -> RunResult

  /** The type text getErrorObject captures for a syntax error. */
  const SyntaxErrorType: string := "<class 'SyntaxError'>"

  /** The line exec(std::wstring) puts in front of the script. */
  const CodingLine: string := "# -*- coding: utf-8 -*-"

  /** The PyObject* a run or call hands back: NULL when it raised. */
  function ResultPtr(rr: RunResult): Ptr
  {
    match rr
    case Returned(p) => p
    case Raised(_) => Null
  }

  /** The error slot after a run: the raised exception, or what was pending before. */
  function SlotAfterRun(rr: RunResult, err0: Option<ErrTriple>): Option<ErrTriple>
  {
    match rr
    case Raised(e) => Some(e)
    case Returned(_) => err0
  }

  /** The PyObject* a successful outcome gives the caller's Var: the one count the caller then owns. */
  function OkPtr(r: Result<Ptr, ExceptionData>): Ptr
  {
    if r.Success? then r.value else Null
  }

  /** A rethrowPythonException() outcome as a result: the thrown snapshot, or the PyObject* at hand. */
  function ThrowOr(t: (Option<ExceptionData>, Option<ErrTriple>), p: Ptr): (Result<Ptr, ExceptionData>, Option<ErrTriple>)
  {
    (if t.0.Some? then Failure(t.0.value) else Success(p), t.1)
  }

  /** What an outcome hands the caller: the result or exception, the error slot, and one owned count of a result. */
  ghost predicate Delivered(out: (Result<Ptr, ExceptionData>, Option<ErrTriple>), r: Result<Ptr, ExceptionData>,
                            err: Option<ErrTriple>, refs0: multiset<Id>, refs1: multiset<Id>)
  {
    r == out.0 && err == out.1 && refs1 == refs0 + Held(OkPtr(out.0))
  }

  /**
   * exec(script): the run's result, or, when it is NULL, whatever
   * rethrowPythonException() makes of the error slot. A thrown exception
   * is the snapshot of the slot, and leaves pending only what capturing
   * its traceback raised; NULL comes back only with nothing to throw.
   */
  function ExecOutcome(heap: map<Id, Obj>, initialized: bool, err0: Option<ErrTriple>, rr: RunResult, or: Oracle)
    : (r: (Result<Ptr, ExceptionData>, Option<ErrTriple>))
    ensures r.0.Failure? ==>
              var slot := SlotAfterRun(rr, err0);
              slot.Some? && r == (Failure(Snapshot(heap, slot, or)), CaptureRaised(heap, slot.value, or))
    ensures r.0 == Success(Null) ==> !(initialized && r.1.Some?)
  {
    var p := ResultPtr(rr);
    if p != Null then (Success(p), err0)
    else ThrowOr(Rethrow(heap, initialized, SlotAfterRun(rr, err0), or), Null)
  }

  /**
   * A script that raises makes exec throw that very exception, popped from
   * the slot; the slot is left empty exactly when its traceback capture is quiet.
   */
  lemma ExecRaisedThrows(heap: map<Id, Obj>, err0: Option<ErrTriple>, e: ErrTriple, or: Oracle)
    ensures ExecOutcome(heap, true, err0, Raised(e), or) == (Failure(Snapshot(heap, Some(e), or)), CaptureRaised(heap, e, or))
    ensures ExecOutcome(heap, true, err0, Raised(e), or).1 == None <==> QuietCapture(heap, e, or)
  {
    CaptureRaisedNone(heap, e, or);
  }

  /** Every capture the oracle can be asked for is quiet: no traceback import, call or parse raises. */
  ghost predicate QuietCaptures(heap: map<Id, Obj>, or: Oracle)
  {
    forall e :: CaptureRaised(heap, e, or) == None
  }

  /**
   * eval(script): the expression's result; when it fails with a syntax
   * error, that error is captured, cleared, and the script runs again as
   * exec; any other failure is rethrown.
   */
  function EvalOutcome(heap: map<Id, Obj>, initialized: bool, err0: Option<ErrTriple>,
                       script: string, run: Runner, or: Oracle)
    : (r: (Result<Ptr, ExceptionData>, Option<ErrTriple>))
    ensures r.0.Failure? && QuietCaptures(heap, or) ==> r.1 == None
  {
    var rr := run(script, EvalInput);
    var p := ResultPtr(rr);
    if p != Null then (Success(p), err0)
    else EvalFallback(heap, initialized, SlotAfterRun(rr, err0), script, run, or)
  }

  /** What eval does once the expression gave NULL, from the error slot left by the attempt. */
  function EvalFallback(heap: map<Id, Obj>, initialized: bool, slot: Option<ErrTriple>,
                        script: string, run: Runner, or: Oracle)
    : (r: (Result<Ptr, ExceptionData>, Option<ErrTriple>))
    ensures r.0.Failure? && QuietCaptures(heap, or) ==> r.1 == None
    ensures slot.Some? && initialized && Snapshot(heap, slot, or).excType != SyntaxErrorType ==>
              r == (Failure(Snapshot(heap, slot, or)), CaptureRaised(heap, slot.value, or))
  {
    var (excData, kept) := Capture(heap, slot, false, or);
    if excData.excType == SyntaxErrorType then
      ExecOutcome(heap, initialized, Capture(heap, kept, true, or).1, run(script, FileInput), or)
    else ThrowOr(Rethrow(heap, initialized, kept, or), Null)
  }

  /**
   * A statement given to eval: its syntax error is captured and cleared, and
   * eval is exec with only what that capture raised pending.
   */
  lemma EvalSyntaxErrorRunsExec(heap: map<Id, Obj>, initialized: bool, err0: Option<ErrTriple>,
                                script: string, run: Runner, or: Oracle)
    requires run(script, EvalInput).Raised?
    requires StrText(heap, run(script, EvalInput).error.excType, or) == SyntaxErrorType
    ensures EvalOutcome(heap, initialized, err0, script, run, or)
            == ExecOutcome(heap, initialized, CaptureRaised(heap, run(script, EvalInput).error, or), run(script, FileInput), or)
  {
  }

  /** Any other exception from eval is thrown as is, and only what its capture raised stays pending. */
  lemma EvalOtherErrorRethrown(heap: map<Id, Obj>, err0: Option<ErrTriple>,
                               script: string, run: Runner, or: Oracle)
    requires run(script, EvalInput).Raised?
    requires StrText(heap, run(script, EvalInput).error.excType, or) != SyntaxErrorType
    ensures EvalOutcome(heap, true, err0, script, run, or)
            == (Failure(Snapshot(heap, Some(run(script, EvalInput).error), or)), CaptureRaised(heap, run(script, EvalInput).error, or))
  {
  }

  /** An expression that evaluates never runs the script as exec. */
  lemma EvalResultIgnoresExec(heap: map<Id, Obj>, initialized: bool, err0: Option<ErrTriple>,
                              script: string, run: Runner, other: Runner, or: Oracle)
    requires run(script, EvalInput).Returned? && run(script, EvalInput).result != Null
    requires other(script, EvalInput) == run(script, EvalInput)
    ensures EvalOutcome(heap, initialized, err0, script, run, or)
            == EvalOutcome(heap, initialized, err0, script, other, or)
            == (Success(run(script, EvalInput).result), err0)
  {
  }

  /** PyRun_String: a new reference to the result, or NULL with the exception set. */
  method RunString(rt: Runtime, script: string, mode: RunMode, run: Runner) returns (p: Ptr)
    modifies rt`refs, rt`err
    ensures p == ResultPtr(run(script, mode))
    ensures rt.refs == old(rt.refs) + Held(p)
    ensures rt.err == SlotAfterRun(run(script, mode), old(rt.err))
  {
    var rr := run(script, mode);
    p := ResultPtr(rr);
    if rr.Raised? {
      rt.err := Some(rr.error);
    }
    rt.refs := rt.refs + Held(p);
  }

  /** exec(const char *script), under a GILLocker. */
  method Exec(rt: Runtime, script: string, run: Runner, or: Oracle) returns (r: Result<Var, ExceptionData>)
    modifies rt`refs, rt`err, rt`gilHeld
    ensures r.Success? ==> fresh(r.value) && r.value.rt == rt
    ensures Delivered(ExecOutcome(rt.heap, rt.initialized, old(rt.err), run(script, FileInput), or), if r.Success? then Success(r.value.o) else Failure(r.error),
                      rt.err, old(rt.refs), rt.refs)
    ensures rt.gilHeld == old(rt.gilHeld)
  {
    var lock := new GILLocker(rt);
    var result := new Var.Empty(rt);
    var p := RunString(rt, script, FileInput, run);
    result.NewRef(p);
    if result.Data() == Null {
      var thrown := RethrowPythonException(rt, or);
      if thrown.Some? {
        lock.Release();
        r := Failure(thrown.value);
        return;
      }
    }
    lock.Release();
    r := Success(result);
  }

  /** eval(const char *script), under a GILLocker, with the exec fallback for statements. */
  method Eval(rt: Runtime, script: string, run: Runner, or: Oracle) returns (r: Result<Var, ExceptionData>)
    modifies rt`refs, rt`err, rt`gilHeld
    ensures r.Success? ==> fresh(r.value) && r.value.rt == rt
    ensures Delivered(EvalOutcome(rt.heap, rt.initialized, old(rt.err), script, run, or),
                      if r.Success? then Success(r.value.o) else Failure(r.error), rt.err, old(rt.refs), rt.refs)
    ensures rt.gilHeld == old(rt.gilHeld)
  {
    var lock := new GILLocker(rt);
    r := EvalLocked(rt, script, run, or);
    lock.Release();
  }

  /** The body of eval, with the GIL held. */
  method EvalLocked(rt: Runtime, script: string, run: Runner, or: Oracle) returns (r: Result<Var, ExceptionData>)
    modifies rt`refs, rt`err, rt`gilHeld
    ensures r.Success? ==> fresh(r.value) && r.value.rt == rt
    ensures Delivered(EvalOutcome(rt.heap, rt.initialized, old(rt.err), script, run, or),
                      if r.Success? then Success(r.value.o) else Failure(r.error), rt.err, old(rt.refs), rt.refs)
    ensures rt.gilHeld == old(rt.gilHeld)
  {
    var result := new Var.Empty(rt);
    var p := RunString(rt, script, EvalInput, run);
    result.NewRef(p);
    if result.Data() == Null {
      assert old(rt.refs) + Held(p) == old(rt.refs);
      r := FallBack(rt, script, run, or);
    } else {
      r := Success(result);
    }
  }

  /** The NULL branch of eval: getErrorObject(false), then exec on a syntax error or rethrow. */
  method FallBack(rt: Runtime, script: string, run: Runner, or: Oracle) returns (r: Result<Var, ExceptionData>)
    modifies rt`refs, rt`err, rt`gilHeld
    ensures r.Success? ==> fresh(r.value) && r.value.rt == rt
    ensures Delivered(EvalFallback(rt.heap, rt.initialized, old(rt.err), script, run, or), if r.Success? then Success(r.value.o) else Failure(r.error),
                      rt.err, old(rt.refs), rt.refs)
    ensures rt.gilHeld == old(rt.gilHeld)
  {
    var excData := GetErrorObject(rt, false, or);
    if excData.excType == SyntaxErrorType {
      var _ := GetErrorObject(rt, true, or);
      r := Exec(rt, script, run, or);
      return;
    }
    var thrown := RethrowPythonException(rt, or);
    if thrown.Some? {
      r := Failure(thrown.value);
    } else {
      var none := new Var.Empty(rt);
      assert rt.refs == old(rt.refs) + Held(Null);
      r := Success(none);
    }
  }

  /**
   * exec(const std::wstring &script): under a ScopedGILLock, exec of the
   * coding line, a newline and the script (its UTF-8 form is left out).
   */
  method ExecWide(rt: Runtime, script: string, run: Runner, or: Oracle) returns (r: Result<Var, ExceptionData>)
    modifies rt`refs, rt`err, rt`gilHeld
    ensures r.Success? ==> fresh(r.value) && r.value.rt == rt
    ensures Delivered(ExecOutcome(rt.heap, rt.initialized, old(rt.err), run(CodingLine + "\n" + script, FileInput), or), if r.Success? then Success(r.value.o) else Failure(r.error),
                      rt.err, old(rt.refs), rt.refs)
    ensures rt.gilHeld == old(rt.gilHeld)
  {
    var lock := new ScopedGILLock(rt);
    r := Exec(rt, CodingLine + "\n" + script, run, or);
    lock.Release();
  }

  /** The coding line is a line of its own: the script's lines follow it unchanged. */
  lemma CodingLineKeepsScriptLines(script: string)
    ensures SplitOn(CodingLine + "\n" + script, '\n') == [CodingLine] + SplitOn(script, '\n')
  {
    assert '\n' !in CodingLine by {
      forall k | 0 <= k < |CodingLine| ensures CodingLine[k] != '\n' { }
    }
    SplitOnCons(CodingLine, '\n', script);
  }

  /**
   * The counts an argument tuple leaves behind: created with one count,
   * filled, and dropped by the Var holding it, whose dealloc releases one
   * count of every slot. Filling with an increment per argument is the
   * corrected call; without it, as written, PyTuple_SetItem steals the
   * caller's references.
   */
  function ArgsTupleRefs(refs: multiset<Id>, t: Id, args: seq<Ptr>, incref: bool): multiset<Id>
  {
    (refs + multiset{t} + (if incref then HeldAll(args) else multiset{})) - multiset{t} - HeldAll(args)
  }

  /** With the increment, the tuple's whole life leaves every count as it found it. */
  lemma {:induction false} ArgsTupleBalanced(refs: multiset<Id>, t: Id, args: seq<Ptr>)
    ensures ArgsTupleRefs(refs, t, args, true) == refs
  {
    var m := refs + multiset{t} + HeldAll(args);
    assert m - multiset{t} == refs + HeldAll(args);
    assert (refs + HeldAll(args)) - HeldAll(args) == refs;
  }

  /**
   * As written, an argument the caller's Var owns once is freed by the
   * tuple's dealloc while that Var still points to it.
   */
  lemma {:induction false} StolenArgumentFreed(owners: multiset<Id>, t: Id, x: Id)
    requires t != x && owners[x] == 1
    ensures ArgsTupleRefs(owners, t, [Ref(x)], false)[x] == 0
    ensures !Balanced(ArgsTupleRefs(owners, t, [Ref(x)], false), owners)
  {
    assert HeldAll([Ref(x)]) == HeldAll([]) + Held(Ref(x));
    assert HeldAll([Ref(x)]) == multiset{x};
  }

  /** PyTuple_New(n): a fresh tuple of n NULL slots, owned by the caller. */
  method NewTuple(rt: Runtime, n: nat) returns (t: Id)
    requires rt.Valid()
    modifies rt`heap, rt`refs, rt`next
    ensures rt.Valid() && rt.next == old(rt.next) + 1
    ensures t !in old(rt.heap) && t !in old(rt.refs)
    ensures rt.heap == old(rt.heap)[t := TupleObj(seq(n, _ => Null))]
    ensures rt.refs == old(rt.refs) + multiset{t}
  {
    t := rt.Alloc(TupleObj(seq(n, _ => Null)));
  }

  /** The tuple after its first i slots are set. */
  function PartlyFilled(args: seq<Ptr>, i: nat): seq<Ptr>
    requires i <= |args|
  {
    args[..i] + seq(|args| - i, _ => Null)
  }

  /** Counts of a prefix of pointers grow by one entry at a time. */
  lemma HeldAllStep(refs0: multiset<Id>, args: seq<Ptr>, i: nat)
    requires i < |args|
    ensures refs0 + HeldAll(args[..i]) + Held(args[i]) == refs0 + HeldAll(args[..i + 1])
  {
    assert args[..i + 1][..i] == args[..i];
  }

  /** PyTuple_SetItem(t, i, args[i]) for every i, with Py_XINCREF first: the tuple takes its own counts. */
  method FillTuple(rt: Runtime, t: Id, args: seq<Ptr>, ghost refs0: multiset<Id>)
    requires t in rt.heap && rt.heap[t] == TupleObj(seq(|args|, _ => Null))
    requires rt.refs == refs0
    modifies rt`heap, rt`refs
    ensures rt.heap == old(rt.heap)[t := TupleObj(args)]
    ensures rt.refs == refs0 + HeldAll(args)
  {
    ghost var heap0 := rt.heap;
    assert PartlyFilled(args, 0) == seq(|args|, _ => Null);
    for i := 0 to |args|
      invariant rt.heap == heap0[t := TupleObj(PartlyFilled(args, i))]
      invariant rt.refs == refs0 + HeldAll(args[..i])
    {
      SetSlot(rt, t, args, i, heap0);
      HeldAllStep(refs0, args, i);
      rt.refs := rt.refs + Held(args[i]);
    }
    assert args[..|args|] == args;
    assert PartlyFilled(args, |args|) == args;
  }

  /** PyTuple_SetItem(t, i, args[i]): slot i takes the argument. */
  method SetSlot(rt: Runtime, t: Id, args: seq<Ptr>, i: nat, ghost heap0: map<Id, Obj>)
    requires i < |args| && rt.heap == heap0[t := TupleObj(PartlyFilled(args, i))]
    modifies rt`heap
    ensures rt.heap == heap0[t := TupleObj(PartlyFilled(args, i + 1))]
  {
    assert PartlyFilled(args, i)[i := args[i]] == PartlyFilled(args, i + 1);
    rt.heap := rt.heap[t := TupleObj(PartlyFilled(args, i)[i := args[i]])];
  }

  /**
   * The argument tuple's Var going out of scope: its count drops to zero
   * and tuple dealloc releases one count of every slot.
   */
  method DropTuple(rt: Runtime, t: Id, slots: seq<Ptr>)
    requires t in rt.heap && rt.heap[t] == TupleObj(slots)
    requires rt.refs[t] == 1
    modifies rt`heap, rt`refs
    ensures rt.heap == old(rt.heap) - {t}
    ensures rt.refs == old(rt.refs) - multiset{t} - HeldAll(slots)
  {
    rt.refs := rt.refs - multiset{t};
    rt.refs := rt.refs - HeldAll(slots);
    rt.heap := rt.heap - {t};
  }

  /** The outcome of call(): PyErr_Clear, PyObject_CallObject, then rethrowPythonException(). */
  function CallOutcome(heap: map<Id, Obj>, initialized: bool, outcome: RunResult, or: Oracle)
    : (r: (Result<Ptr, ExceptionData>, Option<ErrTriple>))
    ensures outcome.Returned? ==> r == (Success(outcome.result), None)
    ensures initialized && outcome.Raised? ==>
              r == (Failure(Snapshot(heap, Some(outcome.error), or)), CaptureRaised(heap, outcome.error, or))
  {
    ThrowOr(Rethrow(heap, initialized, SlotAfterRun(outcome, None), or), ResultPtr(outcome))
  }

  /** PyErr_Clear, PyObject_CallObject and rethrowPythonException(): a new reference to the result, or NULL. */
  method Invoke(rt: Runtime, outcome: RunResult, or: Oracle) returns (result: Ptr, thrown: Option<ExceptionData>)
    modifies rt`refs, rt`err
    ensures result == ResultPtr(outcome)
    ensures rt.refs == old(rt.refs) + Held(result)
    ensures (thrown, rt.err) == Rethrow(rt.heap, rt.initialized, SlotAfterRun(outcome, None), or)
  {
    rt.err := None;
    result := ResultPtr(outcome);
    if outcome.Raised? {
      rt.err := Some(outcome.error);
    }
    rt.refs := rt.refs + Held(result);
    thrown := RethrowPythonException(rt, or);
  }

  /**
   * call(callable, args) with the tuple filled from increments: a
   * non-callable object is refused naming its pointer text; otherwise the
   * pending error is cleared, the callable runs on the arguments (none
   * when args is empty, else a tuple of them) and its exception is
   * rethrown. The caller owns the result, and every other count, the
   * arguments' included, ends as it began.
   */
  method Call(rt: Runtime, callable: Ptr, callableText: string, args: seq<Ptr>,
              outcome: RunResult, or: Oracle) returns (r: Result<Ptr, ExceptionData>)
    requires rt.Valid() && callable != Null
    requires outcome.Returned? && outcome.result.Ref? ==> outcome.result.id in rt.heap
    requires forall i :: 0 <= i < |args| && args[i].Ref? ==> args[i].id in rt.heap
    requires outcome.Raised? ==> LiveTriple(rt.heap, outcome.error)
    modifies rt`heap, rt`refs, rt`next, rt`err
    ensures rt.heap == old(rt.heap)
    ensures !Lookup.IsCallable(old(rt.heap), callable, or) ==>
              r == Failure(Lookup.NotCallable(callableText)) && rt.refs == old(rt.refs) && rt.err == old(rt.err)
    ensures Lookup.IsCallable(old(rt.heap), callable, or) ==>
              Delivered(CallOutcome(old(rt.heap), rt.initialized, outcome, or), r, rt.err, old(rt.refs), rt.refs)
  {
    if !Lookup.IsCallable(rt.heap, callable, or) {
      r := Failure(Lookup.NotCallable(callableText));
      return;
    }
    var result, thrown;
    if |args| > 0 {
      result, thrown := CallWithTuple(rt, args, outcome, or);
    } else {
      result, thrown := Invoke(rt, outcome, or);
    }
    if thrown.Some? {
      r := Failure(thrown.value);
    } else {
      r := Success(result);
    }
  }

  /** argsTuple.newRef(PyTuple_New(n)) and the loop filling it. */
  method PackArgs(rt: Runtime, args: seq<Ptr>) returns (t: Id)
    requires rt.Valid()
    requires forall i :: 0 <= i < |args| && args[i].Ref? ==> args[i].id in rt.heap
    modifies rt`heap, rt`refs, rt`next
    ensures t !in old(rt.heap) && t !in old(rt.refs) && t !in HeldAll(args)
    ensures rt.heap == old(rt.heap)[t := TupleObj(args)]
    ensures rt.refs == old(rt.refs) + multiset{t} + HeldAll(args)
  {
    ghost var refs0 := rt.refs;
    HeldAllWithin(args, rt.heap.Keys);
    t := NewTuple(rt, |args|);
    FillTuple(rt, t, args, refs0 + multiset{t});
  }

  /** The arguments packed in a fresh tuple for the call, which dies with its Var afterwards. */
  method CallWithTuple(rt: Runtime, args: seq<Ptr>, outcome: RunResult, or: Oracle)
    returns (result: Ptr, thrown: Option<ExceptionData>)
    requires rt.Valid()
    requires outcome.Returned? && outcome.result.Ref? ==> outcome.result.id in rt.heap
    requires forall i :: 0 <= i < |args| && args[i].Ref? ==> args[i].id in rt.heap
    requires outcome.Raised? ==> LiveTriple(rt.heap, outcome.error)
    modifies rt`heap, rt`refs, rt`next, rt`err
    ensures rt.heap == old(rt.heap)
    ensures result == ResultPtr(outcome)
    ensures rt.refs == old(rt.refs) + Held(result)
    ensures (thrown, rt.err) == Rethrow(rt.heap, rt.initialized, SlotAfterRun(outcome, None), or)
  {
    ghost var heap0, refs0 := rt.heap, rt.refs;
    var t := PackArgs(rt, args);
    result, thrown := Invoke(rt, outcome, or);
    RethrowFrame(heap0, t, TupleObj(args), rt.initialized, SlotAfterRun(outcome, None), or);
    assert t !in Held(result);
    ReleaseTuple(rt, t, args, refs0, Held(result));
    assert rt.heap == heap0;
  }

  /** ~Var on the argument tuple: its last count goes, and with it one count per argument. */
  method ReleaseTuple(rt: Runtime, t: Id, args: seq<Ptr>, ghost refs0: multiset<Id>, ghost extra: multiset<Id>)
    requires t in rt.heap && rt.heap[t] == TupleObj(args)
    requires t !in refs0 && t !in HeldAll(args) && t !in extra
    requires rt.refs == refs0 + multiset{t} + HeldAll(args) + extra
    modifies rt`heap, rt`refs
    ensures rt.heap == old(rt.heap) - {t}
    ensures rt.refs == refs0 + extra
  {
    FreshCount(refs0, t, HeldAll(args), extra);
    DropTuple(rt, t, args);
    TupleOutlived(refs0, t, args, extra);
  }

  /** The objects of a raised exception are live ones. */
  predicate LiveTriple(heap: map<Id, Obj>, e: ErrTriple)
  {
    && (e.excType.Ref? ==> e.excType.id in heap)
    && (e.excValue.Ref? ==> e.excValue.id in heap)
    && (e.excTraceback.Ref? ==> e.excTraceback.id in heap)
  }

  /** An object the pending exception does not point to does not change what rethrowing it captures. */
  lemma RethrowFrame(heap: map<Id, Obj>, t: Id, o: Obj, initialized: bool, slot: Option<ErrTriple>, or: Oracle)
    requires t !in heap
    requires slot.Some? ==> LiveTriple(heap, slot.value)
    ensures Rethrow(heap[t := o], initialized, slot, or) == Rethrow(heap, initialized, slot, or)
  {
    if slot.Some? {
      var e := slot.value;
      assert Deref(heap[t := o], e.excType) == Deref(heap, e.excType);
      assert Deref(heap[t := o], e.excValue) == Deref(heap, e.excValue);
      assert Deref(heap[t := o], e.excTraceback) == Deref(heap, e.excTraceback);
    }
  }

  /** A fresh identity has exactly the one count its creation gave it. */
  lemma FreshCount(refs0: multiset<Id>, t: Id, filled: multiset<Id>, extra: multiset<Id>)
    requires t !in refs0 && t !in filled && t !in extra
    ensures (refs0 + multiset{t} + filled + extra)[t] == 1
  {
  }

  /** Every identity a sequence of pointers holds is one of theirs. */
  lemma {:induction false} HeldAllWithin(ps: seq<Ptr>, ids: set<Id>)
    requires forall i :: 0 <= i < |ps| && ps[i].Ref? ==> ps[i].id in ids
    ensures forall x :: x in HeldAll(ps) ==> x in ids
  {
    if ps != [] {
      HeldAllWithin(ps[..|ps| - 1], ids);
    }
  }

  /** Regrouping ArgsTupleBalanced around the call's result. */
  lemma TupleOutlived(refs0: multiset<Id>, t: Id, args: seq<Ptr>, extra: multiset<Id>)
    ensures refs0 + multiset{t} + HeldAll(args) + extra - multiset{t} - HeldAll(args) == refs0 + extra
  {
    assert refs0 + multiset{t} + HeldAll(args) + extra == (refs0 + extra) + multiset{t} + HeldAll(args);
    ArgsTupleBalanced(refs0 + extra, t, args);
  }
}

=== FILE: lists.dfy ===
/**
 * The List adapter: a Var on a Python list, with a bounds-checked item
 * getter and mutators that throw when the C API call reports -1.
 */
module Lists {
  import opened Wrappers
  import opened PyRuntime
  import opened Exceptions
  import opened Handle

  /** The items of the object p points to, when it is a list. */
  function ListItems(heap: map<Id, Obj>, p: Ptr): Option<seq<Ptr>>
  {
    match Deref(heap, p)
    case Some(ListObj(items)) => Some(items)
    case _ => None
  }

  /**
   * PyObject_RichCompareBool(item, e, Py_EQ): identity first, then
   * SystemError (PyErr_BadInternalCall) when either side is NULL, then text
   * equality of two strings, otherwise the objects' own == (which may
   * raise); a dangling pointer equals only itself.
   */
  function ItemEquals(heap: map<Id, Obj>, item: Ptr, e: Ptr, or: Oracle): Result<bool, ErrTriple>
  {
    if item == e then Success(true)
    else if item == Null || e == Null then Failure(Raise(SystemErrorId))
    else
      match (Deref(heap, item), Deref(heap, e))
      case (Some(UnicodeObj(a)), Some(UnicodeObj(b))) => Success(a == b)
      case (Some(a), Some(b)) => or.eq(a, b)
      case _ => Success(false)
  }

  /**
   * list.__contains__: the items compared in order, stopping at the first
   * equal one or at the first comparison that raises.
   */
  function ContainsItem(heap: map<Id, Obj>, items: seq<Ptr>, e: Ptr, or: Oracle): (r: Result<bool, ErrTriple>)
    ensures e in items ==> r != Success(false)
    decreases |items|
  {
    if items == [] then Success(false)
    else
      match ItemEquals(heap, items[0], e, or)
      case Failure(x) => Failure(x)
      case Success(true) => Success(true)
      case Success(false) => ContainsItem(heap, items[1..], e, or)
  }

  /** Item k is the first that compares equal: every item before it compares unequal. */
  ghost predicate FirstEqualAt(heap: map<Id, Obj>, items: seq<Ptr>, e: Ptr, or: Oracle, k: int)
  {
    && 0 <= k < |items| && ItemEquals(heap, items[k], e, or) == Success(true)
    && forall j :: 0 <= j < k ==> ItemEquals(heap, items[j], e, or) == Success(false)
  }

  /** Comparing item k raises x, and every item before it compares unequal. */
  ghost predicate FirstRaiseAt(heap: map<Id, Obj>, items: seq<Ptr>, e: Ptr, or: Oracle, k: int, x: ErrTriple)
  {
    && 0 <= k < |items| && ItemEquals(heap, items[k], e, or) == Failure(x)
    && forall j :: 0 <= j < k ==> ItemEquals(heap, items[j], e, or) == Success(false)
  }

  /**
   * What the scan answers: found exactly when some item is the first to
   * compare equal, not found exactly when every item compares unequal, and
   * a raise is the one of the first comparison that raised.
   */
  lemma {:induction false} ContainsItemMeans(heap: map<Id, Obj>, items: seq<Ptr>, e: Ptr, or: Oracle)
    ensures ContainsItem(heap, items, e, or) == Success(true) <==> exists k :: FirstEqualAt(heap, items, e, or, k)
    ensures ContainsItem(heap, items, e, or) == Success(false) <==>
              forall k :: 0 <= k < |items| ==> ItemEquals(heap, items[k], e, or) == Success(false)
    ensures ContainsItem(heap, items, e, or).Failure? ==>
              exists k :: FirstRaiseAt(heap, items, e, or, k, ContainsItem(heap, items, e, or).error)
    decreases |items|
  {
    if items != [] {
      var rest := items[1..];
      ContainsItemMeans(heap, rest, e, or);
      assert forall k :: 1 <= k < |items| ==> items[k] == rest[k - 1];
      var first := ItemEquals(heap, items[0], e, or);
      if first == Success(true) {
        assert FirstEqualAt(heap, items, e, or, 0);
      } else if first == Success(false) {
        if ContainsItem(heap, rest, e, or) == Success(true) {
          var k :| FirstEqualAt(heap, rest, e, or, k);
          assert FirstEqualAt(heap, items, e, or, k + 1);
        }
        if exists k :: FirstEqualAt(heap, items, e, or, k) {
          var k :| FirstEqualAt(heap, items, e, or, k);
          assert FirstEqualAt(heap, rest, e, or, k - 1);
        }
        if ContainsItem(heap, rest, e, or).Failure? {
          var x := ContainsItem(heap, rest, e, or).error;
          var k :| FirstRaiseAt(heap, rest, e, or, k, x);
          assert FirstRaiseAt(heap, items, e, or, k + 1, x);
        }
      } else if first.Failure? {
        assert FirstRaiseAt(heap, items, e, or, 0, first.error);
      }
    }
  }

  /** An element appended to a list it was not found in is found afterwards. */
  lemma {:induction false} ContainsAfterAppend(heap: map<Id, Obj>, items: seq<Ptr>, e: Ptr, or: Oracle)
    requires ContainsItem(heap, items, e, or) == Success(false)
    ensures ContainsItem(heap, items + [e], e, or) == Success(true)
  {
    var all := items + [e];
    ContainsItemMeans(heap, items, e, or);
    ContainsItemMeans(heap, all, e, or);
    assert all[|items|] == e;
    assert forall j :: 0 <= j < |items| ==> all[j] == items[j];
    assert FirstEqualAt(heap, all, e, or, |items|);
  }

  /** PyList_Insert's position: an index past the end means the end. */
  function InsertAt(items: seq<Ptr>, index: nat, e: Ptr): (r: seq<Ptr>)
    ensures |r| == |items| + 1
  {
    var w := if index < |items| then index else |items|;
    items[..w] + [e] + items[w..]
  }

  /** The list without item i. */
  function RemoveAt(items: seq<Ptr>, i: nat): (r: seq<Ptr>)
    requires i < |items|
    ensures |r| == |items| - 1
    ensures forall k :: 0 <= k < i ==> r[k] == items[k]
    ensures forall k :: i <= k < |r| ==> r[k] == items[k + 1]
  {
    items[..i] + items[i + 1..]
  }

  /** Inserting and then removing at the position the insert used gives the list back. */
  lemma RemoveInserted(items: seq<Ptr>, index: nat, e: Ptr)
    ensures var w := if index < |items| then index else |items|;
            InsertAt(items, index, e)[w] == e && RemoveAt(InsertAt(items, index, e), w) == items
  {
    var w := if index < |items| then index else |items|;
    var ins := InsertAt(items, index, e);
    assert ins[..w] == items[..w];
    assert ins[w + 1..] == items[w..];
    assert items[..w] + items[w..] == items;
  }

  /** Inserting at the size or beyond is appending. */
  lemma InsertAtEndAppends(items: seq<Ptr>, index: nat, e: Ptr)
    requires index >= |items|
    ensures InsertAt(items, index, e) == items + [e]
  {
    assert items[..|items|] == items;
    assert items[|items|..] == [];
  }

  /**
   * The exception PySequence_DelItem(o, i) leaves when it fails: SystemError
   * for NULL, IndexError for a list too short, TypeError for any other object.
   * Other sequence types that support item deletion are not modelled.
   */
  function DelItemError(heap: map<Id, Obj>, p: Ptr): ErrTriple
  {
    if Deref(heap, p).None? then Raise(SystemErrorId)
    else if ListItems(heap, p).Some? then Raise(IndexErrorId)
    else Raise(TypeErrorId)
  }

  /**
   * The exception PySequence_Contains(o, e) leaves when o is no list:
   * SystemError for NULL, TypeError for any other object.
   */
  function NotAListError(heap: map<Id, Obj>, p: Ptr): ErrTriple
  {
    if Deref(heap, p).None? then Raise(SystemErrorId) else Raise(TypeErrorId)
  }

  /** The adapter: a Var whose object is expected to be a list. */
  class List {
    const handle: Var

    /** List(PyObject *obj): a Var borrowing obj. */
    constructor (rt: Runtime, obj: Ptr)
      modifies rt`refs
      ensures handle.rt == rt && handle.o == obj && fresh(handle)
      ensures rt.refs == old(rt.refs) + Held(obj)
    {
      handle := new Var.Borrow(rt, obj);
    }

    /** The items of the list this adapter holds, if it holds one. */
    function Items(): Option<seq<Ptr>>
      reads this, handle, handle.rt
    {
      ListItems(handle.rt.heap, handle.o)
    }

    /**
     * size(): PyList_Size, which is -1 with SystemError pending
     * (PyErr_BadInternalCall) for anything but a list.
     */
    method Size() returns (r: Result<nat, ExceptionData>)
      modifies handle.rt`err
      ensures Items().Some? ==> r == Success(|Items().value|) && handle.rt.err == old(handle.rt.err)
      ensures Items().None? ==>
                r == Failure(FromReason("invalid python list object")) && handle.rt.err == Some(Raise(SystemErrorId))
    {
      var items := ListItems(handle.rt.heap, handle.o);
      if items.None? {
        handle.rt.err := Some(Raise(SystemErrorId));
        return Failure(FromReason("invalid python list object"));
      }
      r := Success(|items.value|);
    }

    /**
     * operator[](i): a new Var borrowing item i, when i is below size(); an
     * index out of bounds is cppy3's own throw and raises nothing in Python.
     */
    method Get(i: nat) returns (r: Result<Var, ExceptionData>)
      modifies handle.rt`refs, handle.rt`err
      ensures Items().None? ==>
                r == Failure(FromReason("invalid python list object")) && handle.rt.err == Some(Raise(SystemErrorId))
      ensures Items().Some? ==> handle.rt.err == old(handle.rt.err)
      ensures Items().Some? && i >= |Items().value| ==> r == Failure(FromReason("List index of of bounds"))
      ensures r.Failure? ==> handle.rt.refs == old(handle.rt.refs)
      ensures r.Success? <==> Items().Some? && i < |Items().value|
      ensures r.Success? ==>
                fresh(r.value) && r.value.rt == handle.rt && r.value.o == Items().value[i]
                && handle.rt.refs == old(handle.rt.refs) + Held(Items().value[i])
    {
      var size := Size();
      if size.Failure? {
        return Failure(size.error);
      }
      if i >= size.value {
        return Failure(FromReason("List index of of bounds"));
      }
      var item := ListItems(handle.rt.heap, handle.o).value[i];
      var v := new Var.Borrow(handle.rt, item);
      r := Success(v);
    }

    /** remove(i): PySequence_DelItem, which releases the removed item's count. */
    method Remove(i: nat) returns (r: Result<(), ExceptionData>)
      modifies handle.rt`heap, handle.rt`refs, handle.rt`err
      ensures var before := ListItems(old(handle.rt.heap), handle.o);
              if before.Some? && i < |before.value| then
                && r.Success?
                && handle.rt.heap == old(handle.rt.heap)[handle.o.id := ListObj(RemoveAt(before.value, i))]
                && handle.rt.refs == old(handle.rt.refs) - Held(before.value[i])
                && handle.rt.err == old(handle.rt.err)
              else
                && r == Failure(FromReason("PySequence_DelItem error"))
                && handle.rt.heap == old(handle.rt.heap) && handle.rt.refs == old(handle.rt.refs)
                && handle.rt.err == Some(DelItemError(old(handle.rt.heap), handle.o))
    {
      var rt := handle.rt;
      var items := ListItems(rt.heap, handle.o);
      if items.None? || i >= |items.value| {
        rt.err := Some(DelItemError(rt.heap, handle.o));
        return Failure(FromReason("PySequence_DelItem error"));
      }
      var removed := items.value[i];
      rt.heap := rt.heap[handle.o.id := ListObj(RemoveAt(items.value, i))];
      rt.refs := rt.refs - Held(removed);
      r := Success(());
    }

    /**
     * contains(e): PySequence_Contains, -1 for anything but a list or when a
     * comparison raises, with that exception left pending.
     */
    method Contains(e: Ptr, or: Oracle) returns (r: Result<bool, ExceptionData>)
      modifies handle.rt`err
      ensures var items := Items();
              if items.None? then
                && r == Failure(FromReason("PySequence_Contains failed on list object"))
                && handle.rt.err == Some(NotAListError(handle.rt.heap, handle.o))
              else
                match ContainsItem(handle.rt.heap, items.value, e, or)
                case Success(b) => r == Success(b) && handle.rt.err == old(handle.rt.err)
                case Failure(x) =>
                  r == Failure(FromReason("PySequence_Contains failed on list object")) && handle.rt.err == Some(x)
    {
      var items := ListItems(handle.rt.heap, handle.o);
      if items.None? {
        handle.rt.err := Some(NotAListError(handle.rt.heap, handle.o));
        return Failure(FromReason("PySequence_Contains failed on list object"));
      }
      var found := ContainsItem(handle.rt.heap, items.value, e, or);
      if found.Failure? {
        handle.rt.err := Some(found.error);
        return Failure(FromReason("PySequence_Contains failed on list object"));
      }
      r := Success(found.value);
    }

    /**
     * append(e): PyList_Append, which takes its own count of e; -1 with
     * SystemError pending for a non-list or a NULL e.
     */
    method Append(e: Ptr) returns (r: Result<(), ExceptionData>)
      modifies handle.rt`heap, handle.rt`refs, handle.rt`err
      ensures var before := ListItems(old(handle.rt.heap), handle.o);
              if before.Some? && e != Null then
                && r.Success?
                && handle.rt.heap == old(handle.rt.heap)[handle.o.id := ListObj(before.value + [e])]
                && handle.rt.refs == old(handle.rt.refs) + Held(e)
                && handle.rt.err == old(handle.rt.err)
              else
                && r == Failure(FromReason("PyList_Append failed on list object"))
                && handle.rt.heap == old(handle.rt.heap) && handle.rt.refs == old(handle.rt.refs)
                && handle.rt.err == Some(Raise(SystemErrorId))
    {
      var rt := handle.rt;
      var items := ListItems(rt.heap, handle.o);
      if items.None? || e == Null {
        rt.err := Some(Raise(SystemErrorId));
        return Failure(FromReason("PyList_Append failed on list object"));
      }
      rt.heap := rt.heap[handle.o.id := ListObj(items.value + [e])];
      rt.refs := rt.refs + Held(e);
      r := Success(());
    }

    /**
     * insert(index, e): PyList_Insert, which clamps the index to the size and
     * takes its own count of e; -1 with SystemError pending for a non-list or a NULL e.
     */
    method Insert(index: nat, e: Ptr) returns (r: Result<(), ExceptionData>)
      modifies handle.rt`heap, handle.rt`refs, handle.rt`err
      ensures var before := ListItems(old(handle.rt.heap), handle.o);
              if before.Some? && e != Null then
                && r.Success?
                && handle.rt.heap == old(handle.rt.heap)[handle.o.id := ListObj(InsertAt(before.value, index, e))]
                && handle.rt.refs == old(handle.rt.refs) + Held(e)
                && handle.rt.err == old(handle.rt.err)
              else
                && r == Failure(FromReason("PyList_Insert failed on list object"))
                && handle.rt.heap == old(handle.rt.heap) && handle.rt.refs == old(handle.rt.refs)
                && handle.rt.err == Some(Raise(SystemErrorId))
    {
      var rt := handle.rt;
      var items := ListItems(rt.heap, handle.o);
      if items.None? || e == Null {
        rt.err := Some(Raise(SystemErrorId));
        return Failure(FromReason("PyList_Insert failed on list object"));
      }
      rt.heap := rt.heap[handle.o.id := ListObj(InsertAt(items.value, index, e))];
      rt.refs := rt.refs + Held(e);
      r := Success(());
    }
  }
}

=== FILE: lookup.dfy ===
/**
 * lookupObject and lookupCallable: resolving a dotted name, segment by
 * segment, from a root object.
 */
module Lookup {
  import opened Wrappers
  import opened PyRuntime
  import opened Exceptions
  import opened Text
  import opened Handle

  /** The pending error a failed PyObject_GetAttrString leaves behind. */
  const AttributeErrorPending: ErrTriple := ErrTriple(Ref(AttributeErrorId), Null, Null)

  /** Attributes of an object: a module's namespace or a user object's; built-in values have none here. */
  function Attrs(o: Obj): map<string, Id>
  {
    match o
    case ModuleObj(_, attrs) => attrs
    case OtherObj(_, attrs) => attrs
    case _ => map[]
  }

  /** One segment: by key when the object is a dict, by attribute otherwise; NULL when absent. */
  function Step(heap: map<Id, Obj>, p: Ptr, segment: string): Ptr
  {
    match Deref(heap, p)
    case None => Null
    case Some(o) =>
      if o.DictObj? then (if segment in o.entries then Ref(o.entries[segment]) else Null)
      else (if segment in Attrs(o) then Ref(Attrs(o)[segment]) else Null)
  }

  /** Whether a segment is looked up by attribute, which hands back a new reference. */
  function ByAttribute(heap: map<Id, Obj>, p: Ptr): bool
  {
    match Deref(heap, p)
    case None => true
    case Some(o) => !o.DictObj?
  }

  /** The first missing segment, and whether it was missed as an attribute. */
  datatype Miss = Miss(segment: string, asAttribute: bool)

  /**
   * The resolution of segments from p: the object reached or the first miss,
   * plus the counts left unowned when an attribute lookup returns the very
   * object it was asked on (newRef of the held pointer).
   */
  datatype Resolution = Resolution(outcome: Result<Ptr, Miss>, leaked: multiset<Id>)

  /** The count an attribute step leaves unowned: newRef of the object p already holds. */
  function StepLeak(heap: map<Id, Obj>, p: Ptr, q: Ptr): multiset<Id>
  {
    if ByAttribute(heap, p) && q == p then Held(p) else multiset{}
  }

  /**
   * lookupObject's loop as a function of the heap: the first miss names one
   * of the segments, and every count left unowned is of a live object.
   */
  function Resolve(heap: map<Id, Obj>, p: Ptr, segments: seq<string>): (r: Resolution)
    ensures r.outcome.Failure? ==> r.outcome.error.segment in segments
    decreases |segments|
  {
    if segments == [] || p == Null then Resolution(Success(p), multiset{})
    else
      var q := Step(heap, p, segments[0]);
      if q == Null then Resolution(Failure(Miss(segments[0], ByAttribute(heap, p))), multiset{})
      else
        var rest := Resolve(heap, q, segments[1..]);
        Resolution(rest.outcome, StepLeak(heap, p, q) + rest.leaked)
  }

  /** Every count a resolution leaves unowned is of a live object. */
  lemma {:induction false} ResolveLeaksLive(heap: map<Id, Obj>, p: Ptr, segments: seq<string>)
    ensures forall x :: x in Resolve(heap, p, segments).leaked ==> x in heap
    decreases |segments|
  {
    if segments != [] && p != Null {
      var q := Step(heap, p, segments[0]);
      if q != Null {
        ResolveLeaksLive(heap, q, segments[1..]);
      }
    }
  }

  /**
   * Resolution runs left to right and stops at the first miss: resolving
   * a + b is resolving a, then b from where a ended, unless a failed.
   */
  lemma {:induction false} ResolveAppend(heap: map<Id, Obj>, p: Ptr, a: seq<string>, b: seq<string>)
    ensures var ra := Resolve(heap, p, a);
            Resolve(heap, p, a + b).outcome ==
              match ra.outcome
              case Failure(m) => Failure(m)
              case Success(q) => Resolve(heap, q, b).outcome
    decreases |a|
  {
    if a != [] && p != Null {
      assert (a + b)[0] == a[0];
      assert (a + b)[1..] == a[1..] + b;
      var q := Step(heap, p, a[0]);
      if q != Null {
        ResolveAppend(heap, q, a[1..], b);
      }
    } else if a == [] {
      assert a + b == b;
    }
  }

  /** An empty name resolves to the root itself. */
  lemma ResolveEmptyName(heap: map<Id, Obj>, p: Ptr)
    ensures Resolve(heap, p, SplitOn([], '.')) == Resolution(Success(p), multiset{})
  {
  }

  /** A resolved object is found under its last segment in the object before it. */
  lemma {:induction false} ResolveSuccessFound(heap: map<Id, Obj>, p: Ptr, segments: seq<string>)
    requires p != Null && segments != []
    requires Resolve(heap, p, segments).outcome.Success?
    ensures var r := Resolve(heap, p, segments).outcome.value;
            var prev := Resolve(heap, p, segments[..|segments| - 1]).outcome;
            prev.Success? && prev.value != Null && r == Step(heap, prev.value, segments[|segments| - 1]) && r != Null
    decreases |segments|
  {
    var q := Step(heap, p, segments[0]);
    if |segments| > 1 {
      assert segments[1..][..|segments[1..]| - 1] == segments[..|segments| - 1][1..];
      ResolveSuccessFound(heap, q, segments[1..]);
    }
  }

  /** "lookup <name> failed: no item <segment>". */
  function LookupFailure(name: string, segment: string): ExceptionData
  {
    FromReason("lookup " + name + " failed: no item " + segment)
  }

  /** Loop state of lookupObject: what is left to resolve from p still gives the whole resolution. */
  ghost predicate Tracking(heap: map<Id, Obj>, whole: Resolution, p: Ptr, rest: seq<string>, leaked: multiset<Id>)
  {
    var here := Resolve(heap, p, rest);
    whole.outcome == here.outcome && whole.leaked == leaked + here.leaked
  }

  /** A found segment moves the tracking one segment on. */
  lemma TrackingStep(heap: map<Id, Obj>, whole: Resolution, p: Ptr, segments: seq<string>, i: nat, leaked: multiset<Id>)
    requires i < |segments| && p != Null && Step(heap, p, segments[i]) != Null
    requires Tracking(heap, whole, p, segments[i..], leaked)
    ensures Tracking(heap, whole, Step(heap, p, segments[i]), segments[i + 1..], leaked + StepLeak(heap, p, Step(heap, p, segments[i])))
  {
    assert segments[i..][0] == segments[i];
    assert segments[i..][1..] == segments[i + 1..];
  }

  /** A missing segment ends the resolution with that miss. */
  lemma TrackingMiss(heap: map<Id, Obj>, whole: Resolution, p: Ptr, segments: seq<string>, i: nat, leaked: multiset<Id>)
    requires i < |segments| && p != Null && Step(heap, p, segments[i]) == Null
    requires Tracking(heap, whole, p, segments[i..], leaked)
    ensures whole == Resolution(Failure(Miss(segments[i], ByAttribute(heap, p))), leaked)
  {
    assert segments[i..][0] == segments[i];
  }

  /** Nothing left, or a NULL reached: the resolution is where p stands. */
  lemma TrackingDone(heap: map<Id, Obj>, whole: Resolution, p: Ptr, rest: seq<string>, leaked: multiset<Id>)
    requires rest == [] || p == Null
    requires Tracking(heap, whole, p, rest, leaked)
    ensures whole == Resolution(Success(p), leaked)
  {
  }

  /** What lookupObject leaves behind for a resolution: result, counts and the error slot. */
  ghost predicate LookupOutcome(res: Resolution, name: string, r: Result<Ptr, ExceptionData>,
                                refs0: multiset<Id>, refs1: multiset<Id>,
                                err0: Option<ErrTriple>, err1: Option<ErrTriple>)
  {
    match res.outcome
    case Success(q) =>
      && r == Success(q)
      && refs1 == refs0 + res.leaked + Held(q)
      && err1 == err0
    case Failure(m) =>
      && r == Failure(LookupFailure(name, m.segment))
      && refs1 == refs0 + res.leaked
      && err1 == if m.asAttribute then Some(AttributeErrorPending) else err0
  }

  /** Adding a count and taking it back away leaves the rest as it was. */
  lemma CancelHeld(base: multiset<Id>, h: multiset<Id>)
    ensures base + h - h == base
  {
  }

  /** Regrouping the counts of one pass of the loop. */
  lemma Regroup(refs0: multiset<Id>, leaked: multiset<Id>, leak: multiset<Id>, q: multiset<Id>)
    ensures refs0 + leaked + leak + q == refs0 + (leaked + leak) + q
  {
  }

  /**
   * One pass of lookupObject's loop: p moves to the segment's object, by
   * key (the borrowed PyDict_GetItemString item, taken over with reset; the
   * source assigns a temporary Var memberwise, see Handle.MemberwiseAssignUnbalances) or by attribute
   * (newRef of PyObject_GetAttrString's new reference).
   */
  method Advance(rt: Runtime, p: Var, held: Ptr, segment: string, ghost base: multiset<Id>)
    returns (q: Ptr, ghost leak: multiset<Id>)
    requires p.rt == rt && p.o == held && held != Null && rt.refs == base + Held(held)
    modifies p`o, rt`refs, rt`err
    ensures q == Step(rt.heap, held, segment) && p.o == q
    ensures leak == StepLeak(rt.heap, held, q)
    ensures rt.refs == base + leak + Held(q)
    ensures rt.err == if q == Null && ByAttribute(rt.heap, held) then Some(AttributeErrorPending) else old(rt.err)
  {
    q := Step(rt.heap, held, segment);
    if !ByAttribute(rt.heap, held) {
      AdvanceByKey(rt, p, held, q, base);
      leak := multiset{};
    } else {
      leak := AdvanceByAttribute(rt, p, held, q, base);
    }
  }

  /** A dict step: the borrowed item replaces p's object. */
  method AdvanceByKey(rt: Runtime, p: Var, held: Ptr, q: Ptr, ghost base: multiset<Id>)
    requires p.rt == rt && p.o == held && rt.refs == base + Held(held)
    modifies p`o, rt`refs
    ensures p.o == q && rt.refs == base + multiset{} + Held(q)
  {
    CancelHeld(base, Held(held));
    assert base + multiset{} == base;
    p.Reset(q);
  }

  /** An attribute step: a new reference, or NULL and a pending AttributeError. */
  method AdvanceByAttribute(rt: Runtime, p: Var, held: Ptr, q: Ptr, ghost base: multiset<Id>)
    returns (ghost leak: multiset<Id>)
    requires p.rt == rt && p.o == held && held != Null && rt.refs == base + Held(held)
    modifies p`o, rt`refs, rt`err
    ensures p.o == q
    ensures leak == if q == held then Held(q) else multiset{}
    ensures rt.refs == base + leak + Held(q)
    ensures rt.err == if q == Null then Some(AttributeErrorPending) else old(rt.err)
  {
    leak := if q == held then Held(q) else multiset{};
    if q != Null {
      rt.refs := rt.refs + Held(q);   // PyObject_GetAttrString returns a new reference
    } else {
      rt.err := Some(AttributeErrorPending);
    }
    AttributeStepRefs(base, held, q);
    p.NewRef(q);
  }

  /** newRef of the attribute's new reference: the old object's count goes, unless it is the same object. */
  lemma AttributeStepRefs(base: multiset<Id>, held: Ptr, q: Ptr)
    ensures NewRefRefs(base + Held(held) + Held(q), held, q) == base + (if q == held then Held(q) else multiset{}) + Held(q)
  {
    if q != held {
      assert base + Held(held) + Held(q) - Held(held) == base + Held(q);
    } else {
      assert base + multiset{} == base;
    }
  }

  /**
   * lookupObject(root, name): the object the dotted name resolves to, held
   * by a new Var; a miss throws, naming the segment, and a missing
   * attribute leaves Python's AttributeError pending.
   */
  method LookupObject(rt: Runtime, root: Ptr, name: string) returns (r: Result<Var, ExceptionData>)
    modifies rt`refs, rt`err
    ensures r.Success? ==> fresh(r.value) && r.value.rt == rt
    ensures LookupOutcome(Resolve(rt.heap, root, SplitOn(name, '.')), name,
                          if r.Success? then Success(r.value.o) else Failure(r.error),
                          old(rt.refs), rt.refs, old(rt.err), rt.err)
  {
    var segments := SplitOn(name, '.');
    r := LookupSegments(rt, root, name, segments, Resolve(rt.heap, root, segments));
  }

  /** The loop of lookupObject over the segments of the name. */
  method LookupSegments(rt: Runtime, root: Ptr, name: string, segments: seq<string>, ghost whole: Resolution)
    returns (r: Result<Var, ExceptionData>)
    requires whole == Resolve(rt.heap, root, segments)
    modifies rt`refs, rt`err
    ensures r.Success? ==> fresh(r.value) && r.value.rt == rt
    ensures r.Success? ==> LookupOutcome(whole, name, Success(r.value.o), old(rt.refs), rt.refs, old(rt.err), rt.err)
    ensures r.Failure? ==> LookupOutcome(whole, name, Failure(r.error), old(rt.refs), rt.refs, old(rt.err), rt.err)
  {
    var p := new Var.Borrow(rt, root);
    var missed, i, leaked := WalkAll(rt, p, name, segments, whole, old(rt.refs), old(rt.err));
    if missed {
      r := Failure(LookupFailure(name, segments[i]));
    } else {
      r := Success(p);
    }
  }

  /**
   * The loop of lookupObject: p walks the segments until one is missed or
   * none is left (or NULL is reached), and the counts it leaves are the
   * resolution's.
   */
  method WalkAll(rt: Runtime, p: Var, name: string, segments: seq<string>, ghost whole: Resolution,
                 ghost refs0: multiset<Id>, ghost err0: Option<ErrTriple>)
    returns (missed: bool, i: nat, ghost leaked: multiset<Id>)
    requires p.rt == rt && rt.err == err0 && rt.refs == refs0 + Held(p.o)
    requires whole == Resolve(rt.heap, p.o, segments)
    modifies p`o, rt`refs, rt`err
    ensures missed ==> i < |segments| && LookupOutcome(whole, name, Failure(LookupFailure(name, segments[i])), refs0, rt.refs, err0, rt.err)
    ensures !missed ==> whole == Resolution(Success(p.o), leaked) && rt.refs == refs0 + leaked + Held(p.o) && rt.err == err0
  {
    leaked := multiset{};
    i := 0;
    missed := false;
    assert segments[0..] == segments;
    while i < |segments| && !p.IsNull()
      invariant 0 <= i <= |segments| && p.rt == rt
      invariant rt.err == err0
      invariant rt.refs == refs0 + leaked + Held(p.o)
      invariant Tracking(rt.heap, whole, p.o, segments[i..], leaked)
    {
      missed, leaked := Walk(rt, p, name, segments, i, whole, refs0, leaked, err0);
      if missed {
        return;
      }
      i := i + 1;
    }
    TrackingDone(rt.heap, whole, p.o, segments[i..], leaked);
  }

  /**
   * One pass of lookupObject's loop, from a non-NULL object: either the
   * segment is found and the walk goes on from it, or it is missed and the
   * lookup's outcome is the failure naming it.
   */
  method Walk(rt: Runtime, p: Var, name: string, segments: seq<string>, i: nat, ghost whole: Resolution,
              ghost refs0: multiset<Id>, ghost leaked: multiset<Id>, ghost err0: Option<ErrTriple>)
    returns (missed: bool, ghost leaked': multiset<Id>)
    requires i < |segments| && p.rt == rt && p.o != Null
    requires rt.err == err0 && rt.refs == refs0 + leaked + Held(p.o)
    requires Tracking(rt.heap, whole, p.o, segments[i..], leaked)
    modifies p`o, rt`refs, rt`err
    ensures missed ==> LookupOutcome(whole, name, Failure(LookupFailure(name, segments[i])), refs0, rt.refs, err0, rt.err)
    ensures !missed ==> && p.o != Null && rt.err == err0 && rt.refs == refs0 + leaked' + Held(p.o)
                        && Tracking(rt.heap, whole, p.o, segments[i + 1..], leaked')
  {
    var held := p.o;
    var q, leak := Advance(rt, p, held, segments[i], refs0 + leaked);
    leaked' := leaked;
    missed := q == Null;
    if missed {
      TrackingMiss(rt.heap, whole, held, segments, i, leaked);
    } else {
      TrackingStep(rt.heap, whole, held, segments, i, leaked);
      Regroup(refs0, leaked, leak, Held(q));
      leaked' := leaked + leak;
    }
  }

  /** "PyObject <name> is not callable". */
  function NotCallable(name: string): ExceptionData
  {
    FromReason("PyObject " + name + " is not callable")
  }

  /** Python's callable() on what p points to; NULL is not callable. */
  function IsCallable(heap: map<Id, Obj>, p: Ptr, or: Oracle): bool
  {
    match Deref(heap, p)
    case Some(o) => or.callable(o)
    case None => false
  }

  /** What lookupCallable leaves behind: lookupObject's outcome, with a found non-callable object released and reported. */
  ghost predicate CallableOutcome(res: Resolution, name: string, callable: bool, r: Result<Ptr, ExceptionData>,
                                  refs0: multiset<Id>, refs1: multiset<Id>,
                                  err0: Option<ErrTriple>, err1: Option<ErrTriple>)
  {
    match res.outcome
    case Success(q) =>
      if callable then LookupOutcome(res, name, r, refs0, refs1, err0, err1)
      else r == Failure(NotCallable(name)) && refs1 == refs0 + res.leaked && err1 == err0
    case Failure(_) => LookupOutcome(res, name, r, refs0, refs1, err0, err1)
  }

  /** A successful lookupObject outcome: the resolution found that object, and the counts are its. */
  lemma FoundOutcome(res: Resolution, name: string, q: Ptr, refs0: multiset<Id>, refs1: multiset<Id>,
                     err0: Option<ErrTriple>, err1: Option<ErrTriple>)
    requires LookupOutcome(res, name, Success(q), refs0, refs1, err0, err1)
    ensures res.outcome == Success(q) && refs1 == refs0 + res.leaked + Held(q) && err1 == err0
  {
  }

  /** A failed lookupObject outcome comes from a resolution that missed. */
  lemma MissedOutcome(res: Resolution, name: string, e: ExceptionData, refs0: multiset<Id>, refs1: multiset<Id>,
                      err0: Option<ErrTriple>, err1: Option<ErrTriple>)
    requires LookupOutcome(res, name, Failure(e), refs0, refs1, err0, err1)
    ensures res.outcome.Failure?
  {
  }

  /** lookupCallable(root, name): lookupObject, then a callable() check on what it found. */
  method LookupCallable(rt: Runtime, root: Ptr, name: string, or: Oracle) returns (r: Result<Var, ExceptionData>)
    modifies rt`refs, rt`err
    ensures r.Success? ==> fresh(r.value) && r.value.rt == rt
    ensures var res := Resolve(rt.heap, root, SplitOn(name, '.'));
            var callable := res.outcome.Success? && IsCallable(rt.heap, res.outcome.value, or);
            CallableOutcome(res, name, callable, if r.Success? then Success(r.value.o) else Failure(r.error),
                            old(rt.refs), rt.refs, old(rt.err), rt.err)
  {
    var segments := SplitOn(name, '.');
    r := CallableSegments(rt, root, name, segments, Resolve(rt.heap, root, segments), or);
  }

  /** lookupCallable over the segments of the name. */
  method CallableSegments(rt: Runtime, root: Ptr, name: string, segments: seq<string>, ghost whole: Resolution, or: Oracle)
    returns (r: Result<Var, ExceptionData>)
    requires whole == Resolve(rt.heap, root, segments)
    modifies rt`refs, rt`err
    ensures r.Success? ==> fresh(r.value) && r.value.rt == rt
    ensures r.Success? ==>
              CallableOutcome(whole, name, whole.outcome.Success? && IsCallable(rt.heap, whole.outcome.value, or),
                              Success(r.value.o), old(rt.refs), rt.refs, old(rt.err), rt.err)
    ensures r.Failure? ==>
              CallableOutcome(whole, name, whole.outcome.Success? && IsCallable(rt.heap, whole.outcome.value, or),
                              Failure(r.error), old(rt.refs), rt.refs, old(rt.err), rt.err)
  {
    ghost var refs0, err0 := rt.refs, rt.err;
    r := LookupSegments(rt, root, name, segments, whole);
    if r.Failure? {
      MissedOutcome(whole, name, r.error, refs0, rt.refs, err0, rt.err);
      return;
    }
    var p := r.value;
    FoundOutcome(whole, name, p.o, refs0, rt.refs, err0, rt.err);
    if !IsCallable(rt.heap, p.o, or) {
      Drop(p, refs0 + whole.leaked);   // ~Var() of p as the exception leaves the function
      r := Failure(NotCallable(name));
    }
  }

  /** ~Var() of a handle whose count comes on top of the others: the others are what is left. */
  method Drop(p: Var, ghost base: multiset<Id>)
    requires p.rt.refs == base + Held(p.o)
    modifies p.rt`refs
    ensures p.rt.refs == base
  {
    CancelHeld(base, Held(p.o));
    p.Decref();
  }
}

=== FILE: marshal.dfy ===
/**
 * Marshalling between C++ values and Python objects (convert/extract),
 * Var::type() and Var::toString().
 */
module Marshal {
  import opened Wrappers
  import opened PyRuntime
  import opened Exceptions
  import opened Text

  /** C int, the argument type of convert(const int&). */
  type CInt = x: int | -0x8000_0000 <= x < 0x8000_0000

  /** The C++ scalars convert() accepts; a double is kept as its bits. */
  datatype HostScalar = HInt(i: CInt) | HDouble(bits: bv64) | HText(text: string)

  /** convert(value) for a scalar: PyLong_FromLong, PyFloat_FromDouble, PyUnicode_FromWideChar. */
  function ConvertScalar(v: HostScalar): Obj
  {
    match v
    case HInt(i) => LongObj(i)
    case HDouble(bits) => FloatObj(bits)
    case HText(s) => UnicodeObj(s)
  }

  /** Range of a 64-bit C long, the result type of PyLong_AsLong. */
  const LongMin: int := -0x8000_0000_0000_0000
  const LongMax: int := 0x7fff_ffff_ffff_ffff

  /** What extract(o, long&) stores, and whether PyLong_AsLong left an OverflowError pending. */
  datatype LongValue = LongValue(value: int, overflowPending: bool)

  /** extract(o, double&): strict, a float and nothing else. */
  function ExtractDouble(o: Obj): (r: Result<bv64, ExceptionData>)
    ensures r.Success? <==> o.FloatObj?
    ensures r.Failure? ==> r.error == FromReason("variable is not a real type")
  {
    if o.FloatObj? then Success(o.bits)
    else Failure(FromReason("variable is not a real type"))
  }

  /**
   * extract(o, long&): strict, an int (bool being a subclass of int) and
   * nothing else. PyLong_AsLong's out-of-range result -1 is stored as it is,
   * with the OverflowError left pending.
   */
  function ExtractLong(o: Obj): (r: Result<LongValue, ExceptionData>)
    ensures r.Success? <==> o.LongObj? || o.BoolObj?
    ensures r.Failure? ==> r.error == FromReason("variable is not a long type")
    ensures r.Success? ==> LongMin <= r.value.value <= LongMax
    ensures r.Success? ==> (r.value.overflowPending <==> o.LongObj? && !(LongMin <= o.n <= LongMax))
    ensures o.LongObj? && LongMin <= o.n <= LongMax ==> r.value.value == o.n
    ensures r.Success? && r.value.overflowPending ==> r.value.value == -1
    ensures o.BoolObj? ==> r.value.value == (if o.truth then 1 else 0)
  {
    match o
    case LongObj(n) =>
      if LongMin <= n <= LongMax then Success(LongValue(n, false)) else Success(LongValue(-1, true))
    case BoolObj(b) => Success(LongValue(if b then 1 else 0, false))
    case _ => Failure(FromReason("variable is not a long type"))
  }

  /**
   * extract(o, std::wstring&): lenient, a non-string goes through str()
   * first. The second component is the exception a failed str() leaves
   * pending; None leaves the error slot as it was.
   */
  function ExtractText(o: Obj, or: Oracle): (r: (Result<string, ExceptionData>, Option<ErrTriple>))
    ensures o.UnicodeObj? ==> r == (Success(o.text), None)
    ensures r.0.Success? <==> PyStr(o, or).Success?
    ensures r.0.Success? ==> r.0.value == PyStr(o, or).value && r.1 == None
    ensures r.0.Failure? ==>
              r.0.error == FromReason("variable has no string representation") && r.1 == Some(PyStr(o, or).error)
  {
    if o.UnicodeObj? then (Success(o.text), None)
    else match PyStr(o, or)
      case Success(s) => (Success(s), None)
      case Failure(x) => (Failure(FromReason("variable has no string representation")), Some(x))
  }

  /** Converting a C++ scalar and extracting it as the same type gives the value back. */
  lemma ConvertExtractRoundTrip(v: HostScalar, or: Oracle)
    ensures v.HInt? ==> ExtractLong(ConvertScalar(v)) == Success(LongValue(v.i, false))
    ensures v.HDouble? ==> ExtractDouble(ConvertScalar(v)) == Success(v.bits)
    ensures v.HText? ==> ExtractText(ConvertScalar(v), or) == (Success(v.text), None)
  {
  }

  /** An int is never read back as a double: toDouble() of eval("a + b") throws. */
  lemma IntIsNotDouble(i: CInt)
    ensures ExtractDouble(ConvertScalar(HInt(i))).Failure?
    ensures ExtractDouble(ConvertScalar(HInt(i))).error.reason == "variable is not a real type"
  {
  }

  /** Var::Type. */
  datatype VarType = Unknown | Long | Bool | Float | String | List | Dict | Tuple | NumpyNdarray | Module

  /**
   * Var::type() as written: the first matching check, PyLong_Check first.
   * The numpy branch is compiled out, and a bool is classified LONG.
   */
  function TypeOf(o: Obj): (t: VarType)
    ensures t != NumpyNdarray
    ensures o.BoolObj? ==> t == Long
  {
    if o.LongObj? || o.BoolObj? then Long        // PyLong_Check: bool is a subclass of int
    else if o.FloatObj? then Float
    else if o.UnicodeObj? then String
    else if o.TupleObj? then Tuple
    else if o.DictObj? then Dict
    else if o.ListObj? then List
    else if o.BoolObj? then Bool
    else if o.ModuleObj? then Module
    else Unknown
  }

  /** The BOOL branch of Var::type() is dead: PyLong_Check already accepts True and False. */
  lemma TypeOfNeverBool(o: Obj)
    ensures TypeOf(o) != Bool
    ensures TypeOf(BoolObj(true)) == Long && TypeOf(BoolObj(false)) == Long
  {
  }

  /** Var::type() with PyBool_Check moved ahead of PyLong_Check. */
  function TypeOfCorrected(o: Obj): (t: VarType)
    ensures t == Bool <==> o.BoolObj?
    ensures !o.BoolObj? ==> t == TypeOf(o)
  {
    if o.BoolObj? then Bool else TypeOf(o)
  }

  /** Each tag answers exactly one check of the chain; NoneObj and other types are Unknown. */
  lemma TypeOfClassifies(o: Obj)
    ensures TypeOf(o) == Long <==> o.LongObj? || o.BoolObj?
    ensures TypeOf(o) == Float <==> o.FloatObj?
    ensures TypeOf(o) == String <==> o.UnicodeObj?
    ensures TypeOf(o) == Tuple <==> o.TupleObj?
    ensures TypeOf(o) == Dict <==> o.DictObj?
    ensures TypeOf(o) == List <==> o.ListObj?
    ensures TypeOf(o) == Module <==> o.ModuleObj?
    ensures TypeOf(o) == Unknown <==> o.NoneObj? || o.OtherObj?
    ensures TypeOf(o) != NumpyNdarray
  {
  }

  /** The tp_name of an object's type. */
  function TypeName(o: Obj): string
  {
    match o
    case NoneObj => "NoneType"
    case LongObj(_) => "int"
    case BoolObj(_) => "bool"
    case FloatObj(_) => "float"
    case UnicodeObj(_) => "str"
    case TupleObj(_) => "tuple"
    case ListObj(_) => "list"
    case DictObj(_) => "dict"
    case ModuleObj(_, _) => "module"
    case OtherObj(name, _) => name
  }

  /** The text Var::toString puts in place of an object with neither str() nor repr(). */
  function NoRepresentation(o: Obj): string
  {
    "< type='" + TypeName(o) + "' has no string representation >"
  }

  /**
   * Var::toString(val): str(), else repr(), else a placeholder naming the
   * type. The second component is the exception left pending: str()'s when
   * repr() then succeeds, repr()'s when it fails as well (PyErr_Clear is
   * never called); None leaves the error slot as it was.
   */
  function ToStringOf(o: Obj, or: Oracle): (r: (string, Option<ErrTriple>))
    ensures r.1 == None <==> PyStr(o, or).Success?
    ensures PyStr(o, or).Success? ==> r.0 == PyStr(o, or).value
    ensures PyStr(o, or).Failure? && or.repr(o).Success? ==> r == (or.repr(o).value, Some(PyStr(o, or).error))
    ensures PyStr(o, or).Failure? && or.repr(o).Failure? ==> r == (NoRepresentation(o), Some(or.repr(o).error))
  {
    match PyStr(o, or)
    case Success(t) => (t, None)
    case Failure(x) =>
      match or.repr(o)
      case Success(t) => (t, Some(x))
      case Failure(y) => (NoRepresentation(o), Some(y))
  }

  /**
   * toString() and extract(std::wstring&) agree: one leaves no exception
   * exactly when the other succeeds, with the same text, and when str()
   * fails but repr() does not, both leave str()'s exception pending.
   */
  lemma ToStringMatchesExtract(o: Obj, or: Oracle)
    ensures ExtractText(o, or).0.Success? <==> ToStringOf(o, or).1 == None
    ensures ExtractText(o, or).0.Success? ==> ToStringOf(o, or).0 == ExtractText(o, or).0.value
    ensures ExtractText(o, or).0.Failure? && or.repr(o).Success? ==> ToStringOf(o, or).1 == ExtractText(o, or).1
  {
  }

  /**
   * The texts toString() gives for converted scalars: a string's own text,
   * an int's decimal text, which reads back as the int ("4" for eval("a + b")
   * with a = b = 2), and never a pending exception.
   */
  lemma ToStringOfConverted(v: HostScalar, or: Oracle)
    ensures v.HText? ==> ToStringOf(ConvertScalar(v), or) == (v.text, None)
    ensures v.HInt? ==> ToStringOf(ConvertScalar(v), or).1 == None
    ensures v.HInt? ==> DecimalValue(ToStringOf(ConvertScalar(v), or).0) == v.i
    ensures ToStringOf(LongObj(4), or) == ("4", None)
  {
    assert DecimalText(4) == "4";
  }

  /** Slot p of list lst holds a new object converted from v. */
  ghost predicate SlotConverted(heap: map<Id, Obj>, before: map<Id, Obj>, lst: Id, p: Ptr, v: HostScalar)
  {
    p.Ref? && p.id !in before && p.id != lst && p.id in heap && heap[p.id] == ConvertScalar(v)
  }

  /** The first n slots of list lst are converted from values. */
  ghost predicate SlotsConverted(heap: map<Id, Obj>, before: map<Id, Obj>, lst: Id, values: seq<HostScalar>, n: nat)
  {
    && lst in heap && heap[lst].ListObj? && |heap[lst].items| == |values| && n <= |values|
    && (forall k :: 0 <= k < n ==> SlotConverted(heap, before, lst, heap[lst].items[k], values[k]))
    && (forall k :: n <= k < |values| ==> heap[lst].items[k] == Null)
  }

  lemma FillSlot(heap: map<Id, Obj>, before: map<Id, Obj>, lst: Id, values: seq<HostScalar>, i: nat, item: Id)
    requires SlotsConverted(heap, before, lst, values, i) && i < |values|
    requires item !in heap && item !in before
    ensures var items := heap[lst].items;
            var heap' := heap[item := ConvertScalar(values[i])][lst := ListObj(items[i := Ref(item)])];
            && SlotsConverted(heap', before, lst, values, i + 1)
            && HeldAll(heap'[lst].items[..i + 1]) == HeldAll(items[..i]) + multiset{item}
  {
    var items := heap[lst].items;
    var heap' := heap[item := ConvertScalar(values[i])][lst := ListObj(items[i := Ref(item)])];
    assert items[i := Ref(item)][..i + 1] == items[..i] + [Ref(item)];
    assert (items[..i] + [Ref(item)])[..i] == items[..i];
    forall k | 0 <= k < i + 1
      ensures SlotConverted(heap', before, lst, heap'[lst].items[k], values[k])
    {
      if k < i {
        assert SlotConverted(heap, before, lst, heap[lst].items[k], values[k]);
      }
    }
  }

  /** Creating one object and changing the list leaves every object that was there before alone. */
  lemma KeepsBefore(before: map<Id, Obj>, h: map<Id, Obj>, item: Id, o: Obj, lst: Id, l: Obj)
    requires forall x :: x in before ==> x in h && h[x] == before[x]
    requires item !in before && lst !in before
    ensures forall x :: x in before ==> x in h[item := o][lst := l] && h[item := o][lst := l][x] == before[x]
  {
  }

  /**
   * convert(std::vector<T>) for scalar T: a new list of value.size() slots,
   * slot i set to a new object converted from value[i]; the list owns each
   * item's only reference and the caller owns the list's.
   */
  method ConvertVector(rt: Runtime, values: seq<HostScalar>) returns (lst: Id)
    requires rt.Valid()
    modifies rt`heap, rt`refs, rt`next
    ensures rt.Valid()
    ensures lst !in old(rt.heap) && lst in rt.heap && rt.heap[lst].ListObj?
    ensures |rt.heap[lst].items| == |values|
    ensures forall k :: 0 <= k < |values| ==>
              var p := rt.heap[lst].items[k];
              p.Ref? && p.id !in old(rt.heap) && p.id in rt.heap && rt.heap[p.id] == ConvertScalar(values[k])
    ensures forall x :: x in old(rt.heap) ==> x in rt.heap && rt.heap[x] == old(rt.heap)[x]
    ensures rt.refs == old(rt.refs) + multiset{lst} + HeldAll(rt.heap[lst].items)
  {
    ghost var before := rt.heap;
    ghost var refs0 := rt.refs;
    var n := |values|;
    lst := rt.Alloc(ListObj(seq(n, _ => Null)));
    for i := 0 to n
      invariant rt.Valid()
      invariant lst !in before
      invariant SlotsConverted(rt.heap, before, lst, values, i)
      invariant forall x :: x in before ==> x in rt.heap && rt.heap[x] == before[x]
      invariant rt.refs == refs0 + multiset{lst} + HeldAll(rt.heap[lst].items[..i])
    {
      SetConverted(rt, lst, values, i, before, refs0 + multiset{lst});
    }
    assert rt.heap[lst].items[..n] == rt.heap[lst].items;
    assert forall k :: 0 <= k < n ==> SlotConverted(rt.heap, before, lst, rt.heap[lst].items[k], values[k]);
  }

  /** One pass of the loop: PyList_SetItem(o, i, convert(value[i])), the list taking the item's reference. */
  method SetConverted(rt: Runtime, lst: Id, values: seq<HostScalar>, i: nat,
                      ghost before: map<Id, Obj>, ghost base: multiset<Id>)
    requires rt.Valid() && i < |values| && lst !in before
    requires SlotsConverted(rt.heap, before, lst, values, i)
    requires forall x :: x in before ==> x in rt.heap && rt.heap[x] == before[x]
    requires rt.refs == base + HeldAll(rt.heap[lst].items[..i])
    modifies rt`heap, rt`refs, rt`next
    ensures rt.Valid()
    ensures SlotsConverted(rt.heap, before, lst, values, i + 1)
    ensures forall x :: x in before ==> x in rt.heap && rt.heap[x] == before[x]
    ensures rt.refs == base + HeldAll(rt.heap[lst].items[..i + 1])
  {
    ghost var h := rt.heap;
    var item := rt.Alloc(ConvertScalar(values[i]));
    var items := rt.heap[lst].items;
    FillSlot(h, before, lst, values, i, item);
    KeepsBefore(before, h, item, ConvertScalar(values[i]), lst, ListObj(items[i := Ref(item)]));
    rt.Update(lst, ListObj(items[i := Ref(item)]));
  }
}

=== FILE: runtime.dfy ===
/**
 * The embedded CPython interpreter, seen from the C API only: an object heap,
 * the reference counts, the pending-error slot, the calling thread's GIL flag
 * and the "initialized" flag. Everything the interpreter computes on its own
 * (str(), repr(), callable(), traceback.format_tb, running a script, calling
 * an object) is an oracle passed in as a parameter.
 */
module PyRuntime {
  import opened Wrappers
  import opened Text

  /** Object identities: what a non-NULL PyObject* points to. */
  type Id = nat

  /** A PyObject* that may be NULL. */
  datatype Ptr = Null | Ref(id: Id)

  /** Py_None lives at a fixed identity. */
  const NoneId: Id := 0
  const PyNone: Ptr := Ref(NoneId)

  /** The exception type objects the C API raises itself live at fixed identities too. */
  const AttributeErrorId: Id := 1
  const SystemErrorId: Id := 2
  const IndexErrorId: Id := 3
  const TypeErrorId: Id := 4

  /** The objects the core inspects, by type tag, with their contents. */
  datatype Obj =
    | NoneObj
    | LongObj(n: int)
    | BoolObj(truth: bool)
    | FloatObj(bits: bv64)
    | UnicodeObj(text: string)
    | TupleObj(slots: seq<Ptr>)
    | ListObj(items: seq<Ptr>)
    | DictObj(entries: map<string, Id>)
    | ModuleObj(name: string, attrs: map<string, Id>)
    | OtherObj(typeName: string, attrs: map<string, Id>)

  /** PyErr_Fetch's (type, value, traceback) triple. */
  datatype ErrTriple = ErrTriple(excType: Ptr, excValue: Ptr, excTraceback: Ptr)

  /** PyErr_SetString(type, message) by the C API itself: the message object is left out. */
  function Raise(typeId: Id): ErrTriple
  {
    ErrTriple(Ref(typeId), Null, Null)
  }

  /**
   * One item of the list format_tb returns: PyArg_ParseTuple(t, "s") reads
   * its text, or fails on it and leaves the exception it raised pending.
   */
  datatype TbItem = TbText(text: string) | TbUnparsable(raised: ErrTriple)

  /**
   * PyImport_Import("traceback") followed by the format_tb lookup: the
   * import raised, or the module has no callable format_tb, or it has one.
   */
  datatype TracebackModule = ImportRaises(raised: ErrTriple) | NoFormatTb | FormatTb

  /**
   * The interpreter's own protocols, which the core only calls: str(),
   * repr(), callable(), the traceback module and its format_tb, and ==
   * between two objects. Each that can raise gives the exception it leaves
   * pending when it does.
   */
  datatype Oracle = Oracle(
    str: Obj -> Result<string, ErrTriple>,
    repr: Obj -> Result<string, ErrTriple>,
    callable: Obj -> bool,
    traceback: TracebackModule,
    formatTb: Obj -> Result<seq<TbItem>, ErrTriple>,
    eq: (Obj, Obj) -> Result<bool, ErrTriple>)

  /**
   * PyObject_Str(o): an exact str is itself, an int its decimal text, a bool
   * "True" or "False", None "None"; any other type's __str__ is the oracle's.
   */
  function PyStr(o: Obj, or: Oracle): (r: Result<string, ErrTriple>)
    ensures o.UnicodeObj? ==> r == Success(o.text)
    ensures o.LongObj? ==> r.Success? && DecimalValue(r.value) == o.n
    ensures o.BoolObj? || o.NoneObj? ==> r.Success?
  {
    match o
    case UnicodeObj(s) => Success(s)
    case LongObj(n) => DecimalRoundTrip(n); Success(DecimalText(n))
    case BoolObj(b) => Success(if b then "True" else "False")
    case NoneObj => Success("None")
    case _ => or.str(o)
  }

  /** Outcome of PyRun_String or PyObject_CallObject: a new reference or a raised exception. */
  datatype RunResult = Returned(result: Ptr) | Raised(error: ErrTriple)

  /** The identities a pointer holds one reference to: none for NULL. */
  function Held(p: Ptr): (m: multiset<Id>)
  {
    if p.Ref? then multiset{p.id} else multiset{}
  }

  /** The identities a sequence of pointers holds, one reference per non-NULL entry. */
  function HeldAll(ps: seq<Ptr>): (m: multiset<Id>)
  {
    if ps == [] then multiset{} else HeldAll(ps[..|ps| - 1]) + Held(ps[|ps| - 1])
  }

  /** The object a pointer designates in a heap, if any. */
  function Deref(heap: map<Id, Obj>, p: Ptr): Option<Obj>
  {
    if p.Ref? && p.id in heap then Some(heap[p.id]) else None
  }

  class Runtime {
    /** Live objects. */
    var heap: map<Id, Obj>
    /** Reference counts: refs[x] is Py_REFCNT of object x. */
    var refs: multiset<Id>
    /** The pending exception, if any (PyErr_Occurred). */
    var err: Option<ErrTriple>
    /** Whether the calling thread holds the GIL (PyGILState_Check). */
    var gilHeld: bool
    /** Py_IsInitialized. */
    var initialized: bool
    /** Next identity the allocator hands out. */
    var next: Id

    ghost predicate Valid()
      reads this
    {
      && NoneId in heap && heap[NoneId] == NoneObj
      && AttributeErrorId in heap && SystemErrorId in heap && IndexErrorId in heap && TypeErrorId in heap
      && (forall x :: x in heap ==> x < next)
      && (forall x :: x in refs ==> x < next)
    }

    constructor ()
      ensures Valid() && initialized && gilHeld && err == None
      ensures heap == map[NoneId := NoneObj, AttributeErrorId := OtherObj("type", map[]),
                          SystemErrorId := OtherObj("type", map[]), IndexErrorId := OtherObj("type", map[]),
                          TypeErrorId := OtherObj("type", map[])]
      ensures refs == multiset{NoneId, AttributeErrorId, SystemErrorId, IndexErrorId, TypeErrorId}
    {
      heap := map[NoneId := NoneObj, AttributeErrorId := OtherObj("type", map[]),
                  SystemErrorId := OtherObj("type", map[]), IndexErrorId := OtherObj("type", map[]),
                  TypeErrorId := OtherObj("type", map[])];
      refs := multiset{NoneId, AttributeErrorId, SystemErrorId, IndexErrorId, TypeErrorId};
      err := None;
      gilHeld := true;
      initialized := true;
      next := 5;
    }

    /** error(): Py_IsInitialized() && PyErr_Occurred(). */
    predicate Error()
      reads this
    {
      initialized && err.Some?
    }

    /** Creation of a new object: the caller receives its only reference. */
    method Alloc(o: Obj) returns (id: Id)
      requires Valid()
      modifies this`heap, this`refs, this`next
      ensures Valid()
      ensures id !in old(heap) && id !in old(refs) && heap == old(heap)[id := o]
      ensures refs == old(refs) + multiset{id}
      ensures next == old(next) + 1
    {
      id := next;
      heap := heap[id := o];
      refs := refs + multiset{id};
      next := next + 1;
    }

    /** An object changed in place, keeping its identity. */
    method Update(id: Id, o: Obj)
      requires Valid() && id in heap && id != NoneId
      modifies this`heap
      ensures Valid() && heap == old(heap)[id := o]
    {
      heap := heap[id := o];
    }

    /** PyGILState_Ensure: acquire if this thread does not hold the GIL; the result says whether it did. */
    method GilEnsure() returns (wasHeld: bool)
      modifies this`gilHeld
      ensures wasHeld == old(gilHeld) && gilHeld
    {
      wasHeld := gilHeld;
      gilHeld := true;
    }

    /** PyGILState_Release: give the GIL back only when the matching Ensure acquired it. */
    method GilRelease(wasHeld: bool)
      requires gilHeld
      modifies this`gilHeld
      ensures gilHeld == wasHeld
    {
      gilHeld := wasHeld;
    }
  }
}

=== FILE: syspath.dfy ===
/**
 * appendToSysPath: each path is appended to sys.path unless an equal
 * string is already there.
 */
module SysPath {
  import opened Wrappers
  import opened PyRuntime
  import opened Handle
  import opened Lists
  import opened Gil
  import opened Lookup
  import opened Exceptions

  /** The entries after appending each path that is not among them yet, in order. */
  function DedupAppend(entries: seq<string>, paths: seq<string>): (r: seq<string>)
    ensures entries <= r
    decreases |paths|
  {
    if paths == [] then entries
    else DedupAppend(if paths[0] in entries then entries else entries + [paths[0]], paths[1..])
  }

  /** One more path: appended when the result so far lacks it. */
  lemma {:induction false} DedupAppendSnoc(entries: seq<string>, paths: seq<string>, p: string)
    ensures var r := DedupAppend(entries, paths);
            DedupAppend(entries, paths + [p]) == if p in r then r else r + [p]
    decreases |paths|
  {
    if paths == [] {
      assert [] + [p] == [p];
      assert [p][1..] == [];
    } else {
      var next := if paths[0] in entries then entries else entries + [paths[0]];
      assert (paths + [p])[0] == paths[0];
      assert (paths + [p])[1..] == paths[1..] + [p];
      DedupAppendSnoc(next, paths[1..], p);
    }
  }

  /** Every path ends up among the entries, and nothing else is added. */
  lemma {:induction false} DedupAppendCovers(entries: seq<string>, paths: seq<string>)
    ensures forall p :: p in paths ==> p in DedupAppend(entries, paths)
    ensures forall s :: s in DedupAppend(entries, paths) ==> s in entries || s in paths
    decreases |paths|
  {
    if paths != [] {
      var next := if paths[0] in entries then entries else entries + [paths[0]];
      DedupAppendCovers(next, paths[1..]);
      var r := DedupAppend(entries, paths);
      assert paths[0] in next && next <= r;
      assert forall p :: p in paths ==> p == paths[0] || p in paths[1..];
    }
  }

  /** Paths that are all present already change nothing. */
  lemma {:induction false} DedupAppendPresent(entries: seq<string>, paths: seq<string>)
    requires forall p :: p in paths ==> p in entries
    ensures DedupAppend(entries, paths) == entries
    decreases |paths|
  {
    if paths != [] {
      assert paths[0] in paths;
      assert forall p :: p in paths[1..] ==> p in paths;
      DedupAppendPresent(entries, paths[1..]);
    }
  }

  /** A second call with the same paths leaves sys.path as the first call left it. */
  lemma DedupAppendIdempotent(entries: seq<string>, paths: seq<string>)
    ensures DedupAppend(DedupAppend(entries, paths), paths) == DedupAppend(entries, paths)
  {
    DedupAppendCovers(entries, paths);
    DedupAppendPresent(DedupAppend(entries, paths), paths);
  }

  /** No two entries are equal. */
  predicate Distinct(s: seq<string>)
  {
    forall i, j :: 0 <= i < j < |s| ==> s[i] != s[j]
  }

  /** Appending never introduces a duplicate entry. */
  lemma {:induction false} DedupAppendDistinct(entries: seq<string>, paths: seq<string>)
    requires Distinct(entries)
    ensures Distinct(DedupAppend(entries, paths))
    decreases |paths|
  {
    if paths != [] {
      var next := if paths[0] in entries then entries else entries + [paths[0]];
      if paths[0] !in entries {
        forall i, j | 0 <= i < j < |next|
          ensures next[i] != next[j]
        {
          if j == |entries| {
            assert next[i] == entries[i];
          }
        }
      }
      DedupAppendDistinct(next, paths[1..]);
    }
  }

  /** Every item is a live str object. */
  ghost predicate AllText(heap: map<Id, Obj>, items: seq<Ptr>)
  {
    forall k :: 0 <= k < |items| ==> items[k].Ref? && items[k].id in heap && heap[items[k].id].UnicodeObj?
  }

  /** The texts of a list of str objects. */
  ghost function Texts(heap: map<Id, Obj>, items: seq<Ptr>): (r: seq<string>)
    requires AllText(heap, items)
    ensures |r| == |items|
    decreases |items|
  {
    if items == [] then [] else [heap[items[0].id].text] + Texts(heap, items[1..])
  }

  /** The texts of a longer list: one more at the end. */
  lemma {:induction false} TextsSnoc(heap: map<Id, Obj>, items: seq<Ptr>, e: Ptr)
    requires AllText(heap, items + [e])
    ensures AllText(heap, items) && e.Ref? && e.id in heap && heap[e.id].UnicodeObj?
    ensures Texts(heap, items + [e]) == Texts(heap, items) + [heap[e.id].text]
    decreases |items|
  {
    assert forall k :: 0 <= k < |items| ==> items[k] == (items + [e])[k];
    assert (items + [e])[|items|] == e;
    if items != [] {
      assert (items + [e])[1..] == items[1..] + [e];
      TextsSnoc(heap, items[1..], e);
    } else {
      assert [] + [e] == [e];
    }
  }

  /** Texts read only the objects the items point to. */
  lemma {:induction false} TextsFrame(h1: map<Id, Obj>, h2: map<Id, Obj>, items: seq<Ptr>)
    requires AllText(h1, items)
    requires forall k :: 0 <= k < |items| ==> items[k].id in h2 && h2[items[k].id] == h1[items[k].id]
    ensures AllText(h2, items) && Texts(h2, items) == Texts(h1, items)
    decreases |items|
  {
    if items != [] {
      TextsFrame(h1, h2, items[1..]);
    }
  }

  /**
   * A fresh str is found in a list of strs exactly when its text is one
   * of theirs: it is none of them, so only text equality can match.
   */
  lemma {:induction false} ContainsFreshText(heap: map<Id, Obj>, items: seq<Ptr>, e: Ptr, or: Oracle)
    requires AllText(heap, items)
    requires e.Ref? && e.id in heap && heap[e.id].UnicodeObj? && e !in items
    ensures ContainsItem(heap, items, e, or) == Success(heap[e.id].text in Texts(heap, items))
    decreases |items|
  {
    if items != [] {
      assert items[0] in items;
      assert forall x :: x in items[1..] ==> x in items;
      ContainsFreshText(heap, items[1..], e, or);
    }
  }

  /** PyList_Append of a str to a list of strs adds its text at the end and touches no str. */
  lemma AppendedText(h1: map<Id, Obj>, h2: map<Id, Obj>, lst: Id, items: seq<Ptr>, e: Ptr)
    requires AllText(h1, items) && lst in h1 && h1[lst].ListObj?
    requires e.Ref? && e.id in h1 && h1[e.id].UnicodeObj?
    requires h2 == h1[lst := ListObj(items + [e])]
    ensures AllText(h2, items + [e])
    ensures Texts(h2, items + [e]) == Texts(h1, items) + [h1[e.id].text]
  {
    TextsFrame(h1, h2, items);
    assert AllText(h2, items + [e]) by {
      assert forall k :: 0 <= k < |items| ==> (items + [e])[k] == items[k];
    }
    TextsSnoc(h2, items, e);
  }

  /** What the loop has done after some paths: sys.path holds the original items and the strs added. */
  ghost predicate PathsAdded(heap: map<Id, Obj>, heap0: map<Id, Obj>, lst: Id, items0: seq<Ptr>,
                             added: seq<Ptr>, paths: seq<string>)
  {
    && AllText(heap0, items0)
    && ListItems(heap, Ref(lst)) == Some(items0 + added)
    && AllText(heap, items0 + added)
    && Texts(heap, items0 + added) == DedupAppend(Texts(heap0, items0), paths)
    && (forall x :: x in heap0 && x != lst ==> x in heap && heap[x] == heap0[x])
    && (forall k :: 0 <= k < |added| ==> added[k].Ref? && added[k].id !in heap0)
  }

  /**
   * appendToSysPath(paths) on the sys.path list, with each converted path
   * adopted by its Var (Var::from): a path whose text is not in sys.path
   * yet is appended, once, and the list owns its only count; a path
   * already there leaves its string with no count at all.
   */
  method AppendToSysPath(rt: Runtime, sysPath: Id, paths: seq<string>, or: Oracle) returns (ghost added: seq<Ptr>)
    requires rt.Valid()
    requires ListItems(rt.heap, Ref(sysPath)).Some? && AllText(rt.heap, ListItems(rt.heap, Ref(sysPath)).value)
    modifies rt`heap, rt`refs, rt`next, rt`gilHeld, rt`err
    ensures rt.Valid() && rt.gilHeld == old(rt.gilHeld) && rt.err == old(rt.err)
    ensures PathsAdded(rt.heap, old(rt.heap), sysPath, ListItems(old(rt.heap), Ref(sysPath)).value, added, paths)
    ensures rt.refs == old(rt.refs) + HeldAll(added)
  {
    var lock := new GILLocker(rt);
    added := AppendLocked(rt, sysPath, paths, or);
    lock.Release();
  }

  /** The body of appendToSysPath, under the GILLocker. */
  method AppendLocked(rt: Runtime, sysPath: Id, paths: seq<string>, or: Oracle) returns (ghost added: seq<Ptr>)
    requires rt.Valid()
    requires ListItems(rt.heap, Ref(sysPath)).Some? && AllText(rt.heap, ListItems(rt.heap, Ref(sysPath)).value)
    modifies rt`heap, rt`refs, rt`next, rt`err
    ensures rt.Valid() && rt.err == old(rt.err)
    ensures PathsAdded(rt.heap, old(rt.heap), sysPath, ListItems(old(rt.heap), Ref(sysPath)).value, added, paths)
    ensures rt.refs == old(rt.refs) + HeldAll(added)
  {
    ghost var refs0 := rt.refs;
    var list := new List(rt, Ref(sysPath));
    added := AddAll(rt, list, sysPath, paths, or, refs0 + Held(Ref(sysPath)));
    assert refs0 + Held(Ref(sysPath)) + HeldAll(added) == refs0 + HeldAll(added) + Held(list.handle.o);
    Release(rt, list.handle, refs0 + HeldAll(added));
  }

  /** The loop over the paths, with sys.path held by the List adapter. */
  method AddAll(rt: Runtime, list: List, sysPath: Id, paths: seq<string>, or: Oracle, ghost base: multiset<Id>)
    returns (ghost added: seq<Ptr>)
    requires rt.Valid() && list.handle.rt == rt && list.handle.o == Ref(sysPath)
    requires ListItems(rt.heap, Ref(sysPath)).Some? && AllText(rt.heap, ListItems(rt.heap, Ref(sysPath)).value)
    requires rt.refs == base
    modifies rt`heap, rt`refs, rt`next, rt`err
    ensures rt.Valid() && rt.err == old(rt.err)
    ensures PathsAdded(rt.heap, old(rt.heap), sysPath, ListItems(old(rt.heap), Ref(sysPath)).value, added, paths)
    ensures rt.refs == base + HeldAll(added)
  {
    ghost var heap0 := rt.heap;
    ghost var items0 := ListItems(rt.heap, Ref(sysPath)).value;
    added := [];
    assert items0 + added == items0;
    for i := 0 to |paths|
      invariant rt.Valid()
      invariant PathsAdded(rt.heap, heap0, sysPath, items0, added, paths[..i])
      invariant rt.refs == base + HeldAll(added)
      invariant rt.err == old(rt.err)
    {
      added := AddPath(rt, list, sysPath, paths, i, or, heap0, items0, added, base);
    }
    assert paths[..|paths|] == paths;
  }

  /** A fresh str made from the next path is found exactly when the result so far holds its text. */
  lemma FoundFresh(h1: map<Id, Obj>, h2: map<Id, Obj>, heap0: map<Id, Obj>, lst: Id, items0: seq<Ptr>,
                   added: seq<Ptr>, paths: seq<string>, id: Id, path: string, or: Oracle)
    requires PathsAdded(h1, heap0, lst, items0, added, paths)
    requires id !in h1 && h2 == h1[id := UnicodeObj(path)]
    ensures PathsAdded(h2, heap0, lst, items0, added, paths)
    ensures ContainsItem(h2, items0 + added, Ref(id), or) == Success(path in DedupAppend(Texts(heap0, items0), paths))
  {
    var items := items0 + added;
    TextsFrame(h1, h2, items);
    assert Ref(id) !in items;
    ContainsFreshText(h2, items, Ref(id), or);
  }

  /** Path i of the loop, already present: sys.path stays as it is. */
  lemma StepPresent(heap: map<Id, Obj>, heap0: map<Id, Obj>, lst: Id, items0: seq<Ptr>,
                    added: seq<Ptr>, paths: seq<string>, i: nat)
    requires i < |paths| && PathsAdded(heap, heap0, lst, items0, added, paths[..i])
    requires paths[i] in DedupAppend(Texts(heap0, items0), paths[..i])
    ensures PathsAdded(heap, heap0, lst, items0, added, paths[..i + 1])
  {
    PrefixSnoc(paths, i);
    KeepPresent(heap, heap0, lst, items0, added, paths[..i], paths[i]);
  }

  /** Path i of the loop, not present yet: the fresh str made from it is appended. */
  lemma StepAbsent(h2: map<Id, Obj>, h3: map<Id, Obj>, heap0: map<Id, Obj>, lst: Id, items0: seq<Ptr>,
                   added: seq<Ptr>, paths: seq<string>, i: nat, id: Id)
    requires i < |paths| && PathsAdded(h2, heap0, lst, items0, added, paths[..i])
    requires paths[i] !in DedupAppend(Texts(heap0, items0), paths[..i])
    requires id in h2 && h2[id] == UnicodeObj(paths[i]) && id !in heap0
    requires h3 == h2[lst := ListObj(items0 + added + [Ref(id)])]
    ensures PathsAdded(h3, heap0, lst, items0, added + [Ref(id)], paths[..i + 1])
  {
    PrefixSnoc(paths, i);
    AppendAbsent(h2, h3, heap0, lst, items0, added, paths[..i], paths[i], id);
  }

  /** The first i + 1 paths are the first i and then path i. */
  lemma PrefixSnoc(paths: seq<string>, i: nat)
    requires i < |paths|
    ensures paths[..i + 1] == paths[..i] + [paths[i]]
  {
  }

  /** A path already present leaves sys.path as it is. */
  lemma KeepPresent(heap: map<Id, Obj>, heap0: map<Id, Obj>, lst: Id, items0: seq<Ptr>,
                    added: seq<Ptr>, done: seq<string>, p: string)
    requires PathsAdded(heap, heap0, lst, items0, added, done)
    requires p in DedupAppend(Texts(heap0, items0), done)
    ensures PathsAdded(heap, heap0, lst, items0, added, done + [p])
  {
    DedupAppendSnoc(Texts(heap0, items0), done, p);
  }

  /** A path not present yet is appended as the fresh str made from it. */
  lemma AppendAbsent(h2: map<Id, Obj>, h3: map<Id, Obj>, heap0: map<Id, Obj>, lst: Id, items0: seq<Ptr>,
                     added: seq<Ptr>, done: seq<string>, p: string, id: Id)
    requires PathsAdded(h2, heap0, lst, items0, added, done)
    requires p !in DedupAppend(Texts(heap0, items0), done)
    requires id in h2 && h2[id] == UnicodeObj(p) && id !in heap0
    requires h3 == h2[lst := ListObj(items0 + added + [Ref(id)])]
    ensures PathsAdded(h3, heap0, lst, items0, added + [Ref(id)], done + [p])
  {
    TextsAppended(h2, h3, lst, items0, added, p, id);
    DedupAppendSnoc(Texts(heap0, items0), done, p);
    FreshAppended(heap0, added, id);
    assert forall x :: x in heap0 && x != lst ==> x in h3 && h3[x] == heap0[x];
  }

  /** The list's texts after the append: the old ones and then p. */
  lemma TextsAppended(h2: map<Id, Obj>, h3: map<Id, Obj>, lst: Id, items0: seq<Ptr>, added: seq<Ptr>, p: string, id: Id)
    requires AllText(h2, items0 + added) && lst in h2 && h2[lst].ListObj?
    requires id in h2 && h2[id] == UnicodeObj(p)
    requires h3 == h2[lst := ListObj(items0 + added + [Ref(id)])]
    ensures ListItems(h3, Ref(lst)) == Some(items0 + (added + [Ref(id)]))
    ensures AllText(h3, items0 + (added + [Ref(id)]))
    ensures Texts(h3, items0 + (added + [Ref(id)])) == Texts(h2, items0 + added) + [p]
  {
    var items := items0 + added;
    assert items0 + (added + [Ref(id)]) == items + [Ref(id)];
    AppendedText(h2, h3, lst, items, Ref(id));
  }

  /** Every str added so far, and the new one, is absent from the original heap. */
  lemma FreshAppended(heap0: map<Id, Obj>, added: seq<Ptr>, id: Id)
    requires forall k :: 0 <= k < |added| ==> added[k].Ref? && added[k].id !in heap0
    requires id !in heap0
    ensures forall k :: 0 <= k < |added + [Ref(id)]| ==> (added + [Ref(id)])[k].Ref? && (added + [Ref(id)])[k].id !in heap0
  {
    forall k | 0 <= k < |added + [Ref(id)]|
      ensures (added + [Ref(id)])[k].Ref? && (added + [Ref(id)])[k].id !in heap0
    {
      if k < |added| {
        assert (added + [Ref(id)])[k] == added[k];
      }
    }
  }

  /** One pass of the loop: convert, adopt, contains, append when absent, then ~Var. */
  method AddPath(rt: Runtime, list: List, lst: Id, paths: seq<string>, i: nat, or: Oracle,
                 ghost heap0: map<Id, Obj>, ghost items0: seq<Ptr>, ghost added: seq<Ptr>, ghost base: multiset<Id>)
    returns (ghost added': seq<Ptr>)
    requires i < |paths| && list.handle.rt == rt && list.handle.o == Ref(lst)
    requires rt.Valid()
    requires PathsAdded(rt.heap, heap0, lst, items0, added, paths[..i])
    requires rt.refs == base + HeldAll(added)
    modifies rt`heap, rt`refs, rt`next, rt`err
    ensures rt.Valid() && rt.err == old(rt.err)
    ensures PathsAdded(rt.heap, heap0, lst, items0, added', paths[..i + 1])
    ensures rt.refs == base + HeldAll(added')
  {
    var path := paths[i];
    var id, pyPath := Convert(rt, path);
    var found := Search(list, lst, id, path, or, old(rt.heap), heap0, items0, added, paths[..i]);
    added' := Record(rt, list, lst, paths, i, found, heap0, items0, added, id, base);
    Release(rt, pyPath, base + HeldAll(added'));   // ~Var
  }

  /** Var pyPath = Var::from(convert(path)): the new str's only count is the Var's. */
  method Convert(rt: Runtime, path: string) returns (id: Id, pyPath: Var)
    requires rt.Valid()
    modifies rt`heap, rt`refs, rt`next
    ensures rt.Valid() && fresh(pyPath) && pyPath.rt == rt && pyPath.o == Ref(id)
    ensures id !in old(rt.heap) && rt.heap == old(rt.heap)[id := UnicodeObj(path)]
    ensures rt.refs == old(rt.refs) + Held(pyPath.o)
  {
    id := rt.Alloc(UnicodeObj(path));           // convert(path): a new reference
    pyPath := Var.From(rt, Ref(id));            // adopted, not borrowed
  }

  /** sysPath.contains(pyPath) for the fresh str of the next path: it never throws here. */
  method Search(list: List, lst: Id, id: Id, path: string, or: Oracle, ghost h1: map<Id, Obj>,
                ghost heap0: map<Id, Obj>, ghost items0: seq<Ptr>, ghost added: seq<Ptr>, ghost done: seq<string>)
    returns (found: bool)
    requires list.handle.o == Ref(lst) && PathsAdded(h1, heap0, lst, items0, added, done)
    requires id !in h1 && list.handle.rt.heap == h1[id := UnicodeObj(path)]
    modifies list.handle.rt`err
    ensures list.handle.rt.err == old(list.handle.rt.err)
    ensures PathsAdded(list.handle.rt.heap, heap0, lst, items0, added, done)
    ensures id !in heap0
    ensures found <==> path in DedupAppend(Texts(heap0, items0), done)
  {
    FoundFresh(h1, list.handle.rt.heap, heap0, lst, items0, added, done, id, path, or);
    var r := list.Contains(Ref(id), or);
    found := r.value;
  }

  /** A Var's destructor when its count is the last one the caller's bookkeeping adds. */
  method Release(rt: Runtime, v: Var, ghost kept: multiset<Id>)
    requires v.rt == rt && rt.Valid() && rt.refs == kept + Held(v.o)
    modifies rt`refs
    ensures rt.Valid() && rt.refs == kept
  {
    ghost var refs1 := rt.refs;
    v.Decref();
    CancelHeld(kept, Held(v.o));
    DropKeepsBound(refs1, Held(v.o), rt.next);
  }

  /** Dropping counts keeps every counted identity below the allocator's mark. */
  lemma DropKeepsBound(refs: multiset<Id>, m: multiset<Id>, next: Id)
    requires forall x :: x in refs ==> x < next
    ensures forall x :: x in refs - m ==> x < next
  {
    assert forall x :: x in refs - m ==> x in refs;
  }

  /** if (!sysPath.contains(pyPath)) sysPath.append(pyPath): the list takes its own count of the new str. */
  method Record(rt: Runtime, list: List, lst: Id, paths: seq<string>, i: nat, found: bool,
                ghost heap0: map<Id, Obj>, ghost items0: seq<Ptr>, ghost added: seq<Ptr>, id: Id, ghost base: multiset<Id>)
    returns (ghost added': seq<Ptr>)
    requires i < |paths| && list.handle.rt == rt && list.handle.o == Ref(lst)
    requires rt.Valid() && id in rt.heap && rt.heap[id] == UnicodeObj(paths[i]) && id !in heap0
    requires PathsAdded(rt.heap, heap0, lst, items0, added, paths[..i])
    requires found <==> paths[i] in DedupAppend(Texts(heap0, items0), paths[..i])
    requires rt.refs == base + HeldAll(added) + multiset{id}
    modifies rt`heap, rt`refs, rt`err
    ensures rt.Valid() && rt.err == old(rt.err)
    ensures PathsAdded(rt.heap, heap0, lst, items0, added', paths[..i + 1])
    ensures rt.refs == base + HeldAll(added') + Held(Ref(id))
  {
    if found {
      StepPresent(rt.heap, heap0, lst, items0, added, paths, i);
      return added;
    }
    AppendNew(rt, list, lst, items0 + added, id);
    added' := added + [Ref(id)];
    StepAbsent(old(rt.heap), rt.heap, heap0, lst, items0, added, paths, i, id);
    assert HeldAll(added') == HeldAll(added) + multiset{id} by {
      assert added'[..|added|] == added;
    }
  }

  /** sysPath.append(pyPath) on a live list and a live object: it does not throw. */
  method AppendNew(rt: Runtime, list: List, lst: Id, ghost items: seq<Ptr>, id: Id)
    requires list.handle.rt == rt && list.handle.o == Ref(lst)
    requires rt.Valid() && id in rt.heap && ListItems(rt.heap, Ref(lst)) == Some(items)
    modifies rt`heap, rt`refs, rt`err
    ensures rt.Valid() && rt.err == old(rt.err)
    ensures rt.heap == old(rt.heap)[lst := ListObj(items + [Ref(id)])]
    ensures rt.refs == old(rt.refs) + multiset{id}
  {
    var _ := list.Append(Ref(id));
    assert rt.heap.Keys == old(rt.heap).Keys;
  }
}

=== FILE: text.dfy ===
/**
 * Splitting text at a delimiter the way repeated std::getline does, and
 * joining it back.
 */
module Text {

  /** Where the first c sits, or |s| when there is none. */
  function IndexOrEnd(s: string, c: char): (i: nat)
    ensures i <= |s|
    decreases |s|
  {
    if s == [] || s[0] == c then 0 else IndexOrEnd(s[1..], c) + 1
  }

  /** IndexOrEnd finds a c, or reaches the end, and no c comes before it. */
  lemma {:induction false} IndexOrEndFirst(s: string, c: char)
    ensures IndexOrEnd(s, c) < |s| ==> s[IndexOrEnd(s, c)] == c
    ensures forall k :: 0 <= k < IndexOrEnd(s, c) ==> s[k] != c
    decreases |s|
  {
    if s != [] && s[0] != c {
      IndexOrEndFirst(s[1..], c);
      assert forall k :: 1 <= k < IndexOrEnd(s, c) ==> s[k] == s[1..][k - 1];
    }
  }

  /**
   * The pieces repeated getline(stream, piece, c) yields: none for empty
   * text, an empty piece between two adjacent delimiters, and no empty
   * piece after a final delimiter.
   */
  function SplitOn(s: string, c: char): (pieces: seq<string>)
    ensures s == [] <==> pieces == []
    decreases |s|
  {
    if s == [] then []
    else
      var i := IndexOrEnd(s, c);
      if i == |s| then [s] else [s[..i]] + SplitOn(s[i + 1..], c)
  }

  /** The pieces separated by c. */
  function JoinWith(pieces: seq<string>, c: char): string
  {
    if pieces == [] then []
    else if |pieces| == 1 then pieces[0]
    else pieces[0] + [c] + JoinWith(pieces[1..], c)
  }

  /** The first c is at i when s[i] is c and nothing before it is. */
  lemma IndexAt(s: string, c: char, i: nat)
    requires i < |s| && s[i] == c
    requires forall k :: 0 <= k < i ==> s[k] != c
    ensures IndexOrEnd(s, c) == i
  {
    IndexOrEndFirst(s, c);
  }

  lemma {:induction false} SplitOnCons(piece: string, c: char, rest: string)
    requires c !in piece
    ensures SplitOn(piece + [c] + rest, c) == [piece] + SplitOn(rest, c)
  {
    var s := piece + [c] + rest;
    assert forall k :: 0 <= k < |piece| ==> s[k] == piece[k];
    IndexAt(s, c, |piece|);
    assert s[..|piece|] == piece;
    assert s[|piece| + 1..] == rest;
  }

  /** Every piece is free of the delimiter. */
  lemma {:induction false} SplitOnPiecesFree(s: string, c: char)
    ensures forall k :: 0 <= k < |SplitOn(s, c)| ==> c !in SplitOn(s, c)[k]
    decreases |s|
  {
    if s != [] {
      var i := IndexOrEnd(s, c);
      IndexOrEndFirst(s, c);
      if i < |s| {
        SplitOnPiecesFree(s[i + 1..], c);
        assert c !in s[..i] by {
          assert forall k :: 0 <= k < i ==> s[..i][k] == s[k];
        }
      }
    }
  }

  /** The text before the first c, and the text after it. */
  lemma Cut(s: string, c: char) returns (piece: string, rest: string)
    requires IndexOrEnd(s, c) < |s|
    ensures s == piece + [c] + rest && c !in piece
    ensures SplitOn(s, c) == [piece] + SplitOn(rest, c)
    ensures rest == [] ==> s[|s| - 1] == c
    ensures rest != [] ==> rest[|rest| - 1] == s[|s| - 1]
  {
    var i := IndexOrEnd(s, c);
    IndexOrEndFirst(s, c);
    piece, rest := s[..i], s[i + 1..];
    assert s == piece + [c] + rest;
    assert forall k :: 0 <= k < i ==> piece[k] == s[k];
  }

  /** Joining the pieces gives the text back, unless it ended in the delimiter. */
  lemma {:induction false} JoinSplit(s: string, c: char)
    requires s == [] || s[|s| - 1] != c
    ensures JoinWith(SplitOn(s, c), c) == s
    decreases |s|
  {
    if s != [] {
      IndexOrEndFirst(s, c);
      if IndexOrEnd(s, c) < |s| {
        var piece, rest := Cut(s, c);
        JoinSplit(rest, c);
        JoinFront(piece, SplitOn(rest, c), c);
      }
    }
  }

  /** Joining one more piece in front of non-empty pieces puts c between them. */
  lemma JoinFront(piece: string, tail: seq<string>, c: char)
    requires tail != []
    ensures JoinWith([piece] + tail, c) == piece + [c] + JoinWith(tail, c)
  {
    assert ([piece] + tail)[1..] == tail;
  }

  /** getline drops an empty piece after a final delimiter: "a." splits as ["a"], "." as [""]. */
  lemma SplitTrailingDelimiter(s: string, c: char)
    requires c !in s
    ensures SplitOn(s + [c], c) == [s]
  {
    SplitOnCons(s, c, []);
    assert s + [c] + [] == s + [c];
  }

  /** Splitting joined pieces gives them back when none holds c and the last is not empty. */
  lemma {:induction false} SplitJoin(pieces: seq<string>, c: char)
    requires pieces != [] && pieces[|pieces| - 1] != []
    requires forall k :: 0 <= k < |pieces| ==> c !in pieces[k]
    ensures SplitOn(JoinWith(pieces, c), c) == pieces
  {
    if |pieces| > 1 {
      var first, rest := pieces[0], pieces[1..];
      var joined := JoinWith(rest, c);
      assert JoinWith(pieces, c) == first + [c] + joined;
      assert SplitOn(joined, c) == rest by {
        assert forall k :: 0 <= k < |rest| ==> rest[k] == pieces[k + 1];
        SplitJoin(rest, c);
      }
      SplitOnCons(first, c, joined);
      assert pieces == [first] + rest;
    } else {
      SplitWhole(pieces[0], c);
    }
  }

  /** Text without the delimiter is one piece. */
  lemma SplitWhole(s: string, c: char)
    requires s != [] && c !in s
    ensures SplitOn(s, c) == [s]
  {
    IndexOrEndFirst(s, c);
  }

  /** Text that ends in the delimiter splits on its own: what follows starts a new piece. */
  lemma {:induction false} SplitOnAppend(s: string, t: string, c: char)
    requires s == [] || s[|s| - 1] == c
    ensures SplitOn(s + t, c) == SplitOn(s, c) + SplitOn(t, c)
    decreases |s|
  {
    if s == [] {
      EmptyLeft(s, t);
      EmptyLeft(SplitOn(s, c), SplitOn(t, c));
    } else {
      IndexOrEndFirst(s, c);
      var piece, rest := Cut(s, c);
      Reassociate(piece + [c], rest, t);
      SplitOnCons(piece, c, rest + t);
      SplitOnAppend(rest, t, c);
      Regroup(piece, SplitOn(s, c), SplitOn(rest, c), SplitOn(s + t, c), SplitOn(rest + t, c), SplitOn(t, c));
    }
  }

  /** Nothing in front changes nothing. */
  lemma EmptyLeft<T>(a: seq<T>, b: seq<T>)
    requires a == []
    ensures a + b == b
  {
  }

  /** Concatenation regroups freely. */
  lemma Reassociate<T>(a: seq<T>, b: seq<T>, d: seq<T>)
    ensures a + b + d == a + (b + d)
  {
  }

  /** If a is p then b, and d is p then b then e, d is a then e. */
  lemma Regroup<T>(p: T, a: seq<T>, b: seq<T>, d: seq<T>, be: seq<T>, e: seq<T>)
    requires a == [p] + b && d == [p] + be && be == b + e
    ensures d == a + e
  {
    assert [p] + (b + e) == ([p] + b) + e;
  }

  /** The character of a decimal digit. */
  function DigitChar(d: nat): char
    requires d < 10
  {
    (48 + d) as char
  }

  /** Every character is a decimal digit. */
  predicate AllDigits(s: string)
  {
    forall k :: 0 <= k < |s| ==> '0' <= s[k] <= '9'
  }

  /** The decimal digits of n, most significant first, with no leading zero. */
  function Digits(n: nat): (s: string)
    ensures s != [] && AllDigits(s)
    ensures s[0] == '0' ==> n == 0
    decreases n
  {
    if n < 10 then [DigitChar(n)] else Digits(n / 10) + [DigitChar(n % 10)]
  }

  /** The number a string of decimal digits denotes. */
  function DigitsValue(s: string): nat
    requires AllDigits(s)
    decreases |s|
  {
    if s == [] then 0 else DigitsValue(s[..|s| - 1]) * 10 + (s[|s| - 1] as int - 48)
  }

  /** Reading the digits back gives the number. */
  lemma {:induction false} DigitsRoundTrip(n: nat)
    ensures DigitsValue(Digits(n)) == n
    decreases n
  {
    var s := Digits(n);
    if n >= 10 {
      DigitsRoundTrip(n / 10);
      assert s[..|s| - 1] == Digits(n / 10);
    } else {
      assert s[..|s| - 1] == [];
    }
  }

  /** int.__str__: a minus sign for a negative number, then the digits. */
  function DecimalText(n: int): (s: string)
  {
    if n < 0 then "-" + Digits(-n) else Digits(n)
  }

  /** The number a decimal text denotes, when it is one. */
  function DecimalValue(s: string): int
  {
    if s != [] && s[0] == '-' && AllDigits(s[1..]) then 0 - DigitsValue(s[1..]) as int
    else if AllDigits(s) then DigitsValue(s)
    else 0
  }

  /** The decimal text of an int reads back as that int. */
  lemma DecimalRoundTrip(n: int)
    ensures DecimalValue(DecimalText(n)) == n
  {
    if n < 0 {
      var d := Digits(-n);
      assert ("-" + d)[1..] == d;
      DigitsRoundTrip(-n);
    } else {
      var d := Digits(n);
      assert d[0] != '-';
      DigitsRoundTrip(n);
    }
  }
}

=== FILE: wrappers.dfy ===
/** Failure-carrying values: the model's stand-in for C++ exceptions and NULL returns. */
module Wrappers {

  datatype Option<+T> = None | Some(value: T)

  datatype Result<+R, +E> = Success(value: R) | Failure(error: E)
}
